=== FILE: README.md ===
# XPath extraction service, modelled in Dafny

The service turns an XML document into a nested array for JSON output.
This project models the core of `XPathExtractionService` on an already parsed tree:

- **Leaf selection.** The query `//*[not(*)]` picks every element with no element child, in document order. Each selected element becomes a record of its path and its `textContent`.
- **`getXpath`.** It climbs parent links while the node is an element. Each node gets a position: one more than the number of preceding siblings, of any node kind, that have the same `nodeName`. The segment is the name, with `[position]` appended only when the position exceeds 1. Each segment is prepended with `/`.
- **`groupResults`.** Each path is trimmed of `/` and exploded on `/`. The parts walk down a nested PHP array, and an empty array is created under every missing key. The array reached at the end gets `value` (the text) and `xpath` (the path).

The modules follow the code:

- `XmlTree` is the DOM as an immutable datatype. The document node is part of the tree, so the climb stops at it exactly as the PHP loop does. Node names follow the DOM: `#document`, `#text`, `#cdata-section`, `#comment`, a processing instruction's target, and a document type's name. `TextContent` concatenates text and CDATA descendants and skips comments and processing instructions.
- `Decimal` is the rendering of `$position` inside `"[$position]"`.
- `PathStrings` holds `trim($s, '/')`, `explode('/', $s)`, and the joining of segments into an absolute path.
- `XPath` holds the position count, the segment, and `getXpath`. `GetXpath` is the recursive reference. `GetXpathLoop` is the loop as the PHP writes it.
- `LeafSelection` holds the XPath query, evaluated as a pre-order walk, and the loop that builds the records.
- `Grouping` models the PHP array as an ordered map, `Value = Str | Arr(seq<Entry>)`. The by-reference walk becomes a recursive functional insert that rebuilds the arrays on the way back up.
- `Service` holds `getXPaths` between parsing and JSON encoding, with the end-to-end guarantee.

Properties about whole documents assume `WellFormed`. That means: the root is the document node, no other document node occurs below it, and element names are non-empty and contain none of `/`, `[`, `]`. Every XML name meets this. Outside these lemmas the model accepts any tree.

Three points about what the code does:

- Grouping keys are the raw segments, `[k]` suffixes included.
- Each record carries only `xpath` and `text`, and the grouped array has no entries besides those records build.
- The position counts siblings of every node kind, not only elements. So a processing instruction whose target equals the element's name, or a `<!DOCTYPE root>` before `<root>`, gives position 2. `XPath.OtherKindSiblingCounts` shows both cases.

## Model

| member | source | states |
|---|---|---|
| `XmlTree.ConcatTextNoElement` | src/Service/XPathExtractionService.php:41 | Over children none of which is an element, the text content is the in-order join of the text and CDATA data. |
| `XmlTree.LeafTextContent` | src/Service/XPathExtractionService.php:41 | For an element with no element child, `textContent` is the in-order join of its text and CDATA children. Comments and processing instructions add nothing. |
| `XPath.CountNamedZero` | src/Service/XPathExtractionService.php:73-76 | No sibling is counted exactly when no preceding sibling has the node's name. |
| `XPath.Position` | src/Service/XPathExtractionService.php:71-78 | The position is at least 1. It is exactly 1 when no preceding sibling, of any node kind, shares the node's name. |
| `XPath.ComputePosition` | src/Service/XPathExtractionService.php:71-78 | The backwards walk over `previousSibling` computes the reference position, one plus the count of same-named earlier siblings. |
| `XPath.PositionIncreasing` | src/Service/XPathExtractionService.php:71-78 | Of two siblings with the same name, the later one has the strictly larger position. |
| `XPath.PositionInjective` | src/Service/XPathExtractionService.php:71-78 | Two same-named siblings with equal positions are the same sibling. |
| `Decimal.NatToString` | src/Service/XPathExtractionService.php:82 | The rendered position is non-empty and all digits, with no leading zero. It has two or more digits exactly when the number is at least 10. |
| `Decimal.ParseNatToString` | src/Service/XPathExtractionService.php:82 | Reading the rendered digits back gives the number. |
| `Decimal.NatToStringInjective` | src/Service/XPathExtractionService.php:82 | Two numbers render equally exactly when they are equal. |
| `Decimal.NatToStringIsOne` | src/Service/XPathExtractionService.php:82 | Only position 1 renders as `1`. |
| `XPath.Segment` | src/Service/XPathExtractionService.php:80-83 | A segment starts with the node name. For a valid name it is non-empty and has no `/`. |
| `XPath.SegmentRoundTrip` | src/Service/XPathExtractionService.php:80-83 | A segment has a `[` exactly when the position exceeds 1. Parsing the segment gives back the name and the position. |
| `XPath.SegmentInjective` | src/Service/XPathExtractionService.php:80-83 | Two segments are equal exactly when their names and their positions are equal. |
| `XPath.AppendSegmentNoMarker` | src/Service/XPathExtractionService.php:80-85 | Appending `/` and a valid segment to a path without `[1]` never creates `[1]`. |
| `XPath.GetXpathLoop` | src/Service/XPathExtractionService.php:65-90 | The loop that prepends segments while climbing to the first non-element computes the recursive path. |
| `XPath.GetXpathIsJoin` | src/Service/XPathExtractionService.php:70-86 | The path is the collected segment list, each segment preceded by `/`. |
| `XPath.SegmentsLength` | src/Service/XPathExtractionService.php:70-86 | In a well-formed document, an element's path has one segment per element on its ancestor chain. Each segment is non-empty and has no `/`. |
| `XPath.SegmentsPrefix` | src/Service/XPathExtractionService.php:70-86 | The first d segments of an element's path are the path of its ancestor at depth d. |
| `XPath.SegmentsAtDepth` | src/Service/XPathExtractionService.php:70-86 | Segment d of an element's path is the segment of its ancestor at depth d+1, from the root element down. |
| `XPath.XpathSplitRoundTrip` | src/Service/XPathExtractionService.php:106 | `explode('/', trim(...))` on a generated path returns exactly the segments `getXpath` built. |
| `XPath.SiblingSegmentInjective` | src/Service/XPathExtractionService.php:71-83 | Two sibling elements with the same segment are the same element. |
| `XPath.SegmentsInjective` | src/Service/XPathExtractionService.php:70-85 | Two elements with the same segment list are the same element. |
| `XPath.XpathInjective` | src/Service/XPathExtractionService.php:65-90 | In a well-formed document, two elements have the same path exactly when they are the same element. |
| `XPath.NoFirstMarker` | src/Service/XPathExtractionService.php:80-85 | No generated path contains `[1]`. |
| `XPath.OtherKindSiblingCounts` | src/Service/XPathExtractionService.php:74 | A processing instruction or a document type with the element's name counts as a same-named sibling. |
| `PathStrings.TrimLeft` | src/Service/XPathExtractionService.php:106 | The result is a suffix of the input. Everything removed is `/`, and the result does not start with `/`. |
| `PathStrings.TrimRight` | src/Service/XPathExtractionService.php:106 | The result is a prefix of the input. Everything removed is `/`, and the result does not end with `/`. |
| `PathStrings.Explode` | src/Service/XPathExtractionService.php:106 | There is always at least one part, and no part contains `/`. |
| `PathStrings.ImplodeExplode` | src/Service/XPathExtractionService.php:106 | Joining the exploded parts with `/` gives back the string. |
| `PathStrings.ExplodeImplode` | src/Service/XPathExtractionService.php:106 | Exploding joined `/`-free parts gives back the parts. |
| `PathStrings.SplitJoinPath` | src/Service/XPathExtractionService.php:106 | Trimming and exploding an absolute path of non-empty `/`-free segments returns the segments. |
| `LeafSelection.LeafWalkSpec` | src/Service/XPathExtractionService.php:35 | The walk lists exactly the elements with no element child. |
| `LeafSelection.LeafWalkOrder` | src/Service/XPathExtractionService.php:35 | The walk lists them in document order. |
| `LeafSelection.SelectLeaves` | src/Service/XPathExtractionService.php:35 | The query returns every element with no element child and nothing else, once each, in document order. |
| `LeafSelection.ExtractRecords` | src/Service/XPathExtractionService.php:38-43 | The foreach loop gives one record per selected element, in the query's order. Each record holds the element's path and text content. |
| `LeafSelection.ExtractComplete` | src/Service/XPathExtractionService.php:38-43 | Every element with no element child has a record with its path and its text content. |
| `LeafSelection.ExtractSound` | src/Service/XPathExtractionService.php:38-43 | Every record belongs to an element with no element child. |
| `LeafSelection.ExtractDistinctPaths` | src/Service/XPathExtractionService.php:38-43 | In a well-formed document, no two records share a path. |
| `Grouping.Put` | src/Service/XPathExtractionService.php:115 | After the assignment, the key holds the new value and every other key is unchanged. Existing keys keep their places, and only a new key is appended. |
| `Grouping.Insert` | src/Service/XPathExtractionService.php:106-124 | A successful insert leaves an array. Following the parts then `value` reaches the text, and following the parts then `xpath` reaches the path. |
| `Grouping.InsertFailsOnScalar` | src/Service/XPathExtractionService.php:112-120 | The insert fails exactly when some prefix of the parts, the empty prefix included, already leads to a string. |
| `Grouping.InsertKeeps` | src/Service/XPathExtractionService.php:112-124 | An insert never deletes or resets earlier entries. Every path that led somewhere still does, strings are unchanged, and arrays only gain keys. The one exception is the record's own `value` and `xpath` entries. |
| `Grouping.InsertScalarOrigin` | src/Service/XPathExtractionService.php:112-124 | After an insert, every string is either one of the two entries just written or was already there. |
| `Grouping.InsertPathOrigin` | src/Service/XPathExtractionService.php:112-124 | After an insert, every path that leads anywhere either already did or lies on the way to one of the two entries just written. The walk adds no other key. |
| `Grouping.GroupFromSucceeds` | src/Service/XPathExtractionService.php:104-125 | The fold succeeds when no string lies on a pending record's way and no record's parts pass through another's `value` or `xpath`. |
| `Grouping.GroupResultsSucceeds` | src/Service/XPathExtractionService.php:99-127 | Grouping succeeds when no record's parts pass through another record's `value` or `xpath` entry. |
| `Grouping.GroupFromKeepsScalar` | src/Service/XPathExtractionService.php:104-125 | A string that no later record writes over, or below, survives the rest of the fold. |
| `Grouping.GroupFromAppend` | src/Service/XPathExtractionService.php:104-125 | Folding two lists in a row is folding the first, then the second from its result. |
| `Grouping.GroupFromScalarOrigin` | src/Service/XPathExtractionService.php:104-125 | After the fold, every string either was already there or is the `value` or `xpath` entry of one of the folded records. |
| `Grouping.GroupResultsScalarOrigin` | src/Service/XPathExtractionService.php:99-127 | Every string in the grouped result is the `value` or `xpath` entry of some record: grouping writes no other string. |
| `Grouping.GroupFromPathOrigin` | src/Service/XPathExtractionService.php:104-125 | After the fold, every path that leads anywhere either already did or lies on the way to the `value` or `xpath` entry of a folded record. |
| `Grouping.GroupResultsPathOrigin` | src/Service/XPathExtractionService.php:99-127 | Every path that leads anywhere in the grouped result is empty or lies on the way to some record's `value` or `xpath` entry. Grouping creates no other key, and no array off those ways. |
| `Grouping.GroupResultsLastWriteWins` | src/Service/XPathExtractionService.php:99-127 | Take the last record with its parts, where no later record writes `value` or `xpath` on its way. Following its parts then reaches its own text under `value` and its own path under `xpath`. |
| `Service.ExtendedPathHasChild` | src/Service/XPathExtractionService.php:70-86 | If one element's segments plus one part are a prefix of another element's segments, the first element has an element child. |
| `Service.LeafPathsPrefixFree` | src/Service/XPathExtractionService.php:35 | The segments of a selected element, extended by any part, are never a prefix of the segments of a selected element. |
| `Service.RecordParts` | src/Service/XPathExtractionService.php:106 | The parts a record is filed under are the segments of its element's path. |
| `Service.ExtractNoFieldClash` | src/Service/XPathExtractionService.php:38-46 | In a well-formed document, no record's parts pass through another record's `value` or `xpath`. |
| `Service.ExtractDistinctParts` | src/Service/XPathExtractionService.php:38-46 | In a well-formed document, two records are filed under different parts. |
| `Service.GroupedLeaf` | src/Service/XPathExtractionService.php:29-46 | For a well-formed document, grouping succeeds. Every selected element's segments lead to an array holding its text content as `value` and its path as `xpath`. |
| `Service.GroupedScalarIsLeafField` | src/Service/XPathExtractionService.php:29-46 | In the grouped result of a well-formed document, every string sits at the `value` or `xpath` entry under the segments of an element with no element child. |
| `Service.GroupedPathIsLeafWay` | src/Service/XPathExtractionService.php:29-46 | In the grouped result of a well-formed document, every path that leads anywhere is empty or lies on the way to the `value` or `xpath` entry under the segments of an element with no element child. |
| `Service.GetXPaths` | src/Service/XPathExtractionService.php:29-46 | Records are built and then grouped. For a well-formed document the result exists. Every selected element's segments lead to its text under `value` and its path under `xpath`. Every string in the result is one of these entries. Every key and every array lies on the way to one of them. So the result holds the two entries of each selected element and nothing else. |

## Left out

- XML parsing with `loadXML` and the "Cannot load xml" exception (lines 23-26) are left out. The input is an already built tree.
- The XPath engine (lines 32-35) is replaced by a direct pre-order walk with the same selection and order.
- `json_encode` and its flags (line 49) are left out. They are a foreign call that handles UTF-8.
- `main.php` is left out: reading stdin, echoing, and exit codes are I/O.
- Entity reference nodes are not part of the tree. With `loadXML`'s default options, a reference to a user-declared entity stays a node named after the entity. Such a node would join the count at line 74 like a processing instruction, and its replacement text would be part of `textContent` at line 41. The tree has no such node kind because it would need the document type's entity declarations, which come from the parser. Documents without user-declared entities are unaffected.
- Attributes are not children in the DOM, so they take no part in sibling counting.
- PHP strings are byte strings, while the model's `string` is a sequence of characters. Nothing here depends on the difference. The separator `/` is ASCII, and in UTF-8 no multi-byte sequence contains its byte, so `trim`, `explode` and name comparison give the same results either way.
- A real document has at most one document element. The model allows any number of children under the document node, which is more general.
- The comparison at line 74 uses PHP's loose `==`. Both sides are node names, and XML names are never numeric strings, so the model uses string equality.
- PHP turns decimal-integer string keys into integer keys. No valid element segment is such a string, so keys are kept as strings.
- `$position` is a PHP integer. The model's count is unbounded, since no sibling list reaches the integer limit.
- `groupResults` is public and accepts any record list. For some lists, grouping meets a string where it needs an array: a record's parts pass through another record's `value` or `xpath` entry. Records from a well-formed document never do this (`Service.GroupedLeaf`). PHP's exact reaction depends on its version (a warning, a thrown error, or a write into the string). The model returns `None` for all of these.

=== FILE: decimal.dfy ===
/**
 Decimal rendering of a non-negative integer, as string interpolation of
 an integer produces it: no sign, no leading zeros.
 */
module Decimal {

  predicate IsDigit(c: char) {
    '0' <= c <= '9'
  }

  predicate AllDigits(s: string) {
    forall i :: 0 <= i < |s| ==> IsDigit(s[i])
  }

  function DigitChar(d: nat): (c: char)
    requires d < 10
    ensures IsDigit(c)
  {
    ('0' as int + d) as char
  }

  function DigitValue(c: char): (d: nat)
    requires IsDigit(c)
    ensures d < 10 && DigitChar(d) == c
  {
    c as int - '0' as int
  }

  /** The decimal digits of `n`, most significant first. */
  function NatToString(n: nat): (s: string)
    ensures |s| >= 1 && AllDigits(s)
    ensures s[0] == '0' ==> n == 0
    ensures n >= 10 <==> |s| >= 2
  {
    if n < 10 then [DigitChar(n)] else NatToString(n / 10) + [DigitChar(n % 10)]
  }

  /** Reads a string of decimal digits back as a number. */
  function ParseDecimal(s: string): nat
    requires AllDigits(s)
    decreases |s|
  {
    if s == [] then 0 else ParseDecimal(s[..|s| - 1]) * 10 + DigitValue(s[|s| - 1])
  }

  /** Reading the rendering back gives the number: rendering loses nothing. */
  lemma {:induction false} ParseNatToString(n: nat)
    ensures ParseDecimal(NatToString(n)) == n
  {
    var s := NatToString(n);
    if n < 10 {
      assert s[..|s| - 1] == [];
    } else {
      assert s[..|s| - 1] == NatToString(n / 10);
      ParseNatToString(n / 10);
    }
  }

  /** Different numbers render differently. */
  lemma NatToStringInjective(a: nat, b: nat)
    ensures NatToString(a) == NatToString(b) <==> a == b
  {
    ParseNatToString(a);
    ParseNatToString(b);
  }

  /** The only number rendered as "1" is 1. */
  lemma NatToStringIsOne(n: nat)
    ensures NatToString(n) == "1" <==> n == 1
  {
  }
}

=== FILE: grouping.dfy ===
/**
 `groupResults`: folds the flat record list into a nested PHP array keyed
 by path parts. The PHP code walks down by reference, creating an empty
 array under each missing key, and writes `value` and `xpath` into the
 array it reaches; here the walk is a recursive insert that rebuilds the
 arrays on the way back up.
 */
module Grouping {
  import opened Wrappers
  import opened PathStrings
  import opened LeafSelection

  /** `p` is a (not necessarily strict) prefix of `q`. */
  predicate IsPrefix<T(==)>(p: seq<T>, q: seq<T>) {
    |p| <= |q| && q[..|p|] == p
  }

  /** A path extended by one part is a prefix of another extended path only
      when the two are equal, or when it is already a prefix of the other
      path itself. */
  lemma PrefixOfSnoc<T>(a: seq<T>, x: T, b: seq<T>, y: T)
    ensures IsPrefix(a + [x], b + [y]) ==> (a == b && x == y) || IsPrefix(a + [x], b)
  {
    if IsPrefix(a + [x], b + [y]) {
      if |a| == |b| {
        assert (b + [y])[..|a| + 1] == b + [y];
        assert (a + [x])[..|a|] == a && (b + [y])[..|b|] == b;
      } else {
        assert (b + [y])[..|a| + 1] == b[..|a| + 1];
      }
    }
  }

  /** A value of the grouped result: a string, or a PHP array whose entries
      keep insertion order. */
  datatype Value = Str(s: string) | Arr(entries: seq<Entry>)
  datatype Entry = Entry(key: string, val: Value)

  /** `$a[$k]` when `isset`: the value stored under the key. */
  function Get(es: seq<Entry>, k: string): Option<Value> {
    if es == [] then None
    else if es[0].key == k then Some(es[0].val)
    else Get(es[1..], k)
  }

  /** `$a[$k] = $v`: the value of an existing key is replaced where it
      stands, a new key is appended at the end. */
  function Put(es: seq<Entry>, k: string, v: Value): (r: seq<Entry>)
    ensures Get(r, k) == Some(v)
    ensures forall k' :: k' != k ==> Get(r, k') == Get(es, k')
    ensures |r| == if Get(es, k).Some? then |es| else |es| + 1
    ensures forall i :: 0 <= i < |es| ==> r[i].key == es[i].key
  {
    if es == [] then [Entry(k, v)]
    else if es[0].key == k then [Entry(k, v)] + es[1..]
    else [es[0]] + Put(es[1..], k, v)
  }

  /** The value reached by following `path` key by key from `v`. */
  function Follow(v: Value, path: seq<string>): Option<Value>
    decreases |path|
  {
    if path == [] then Some(v)
    else match v
      case Str(_) => None
      case Arr(es) =>
        match Get(es, path[0])
        case None => None
        case Some(c) => Follow(c, path[1..])
  }

  /** A string sits at `path`. */
  predicate ScalarAt(v: Value, path: seq<string>) {
    Follow(v, path).Some? && Follow(v, path).value.Str?
  }

  /** `explode('/', trim($xpath, '/'))`: the parts a record is filed under. */
  function Parts(xpath: string): seq<string> {
    Explode(Trim(xpath))
  }

  /** One pass of the outer loop of `groupResults` from the array `cur`:
      for each part, put an empty array under the key if it is not set, and
      descend into it; then write `value` and `xpath`. Descending into a
      string, or writing a key onto one, fails. */
  function Insert(cur: Value, parts: seq<string>, text: string, xpath: string): (r: Option<Value>)
    ensures r.Some? ==> r.value.Arr?
    ensures r.Some? ==> Follow(r.value, parts + ["value"]) == Some(Str(text))
    ensures r.Some? ==> Follow(r.value, parts + ["xpath"]) == Some(Str(xpath))
    decreases |parts|
  {
    if cur.Str? then None
    else if parts == [] then
      Some(Arr(Put(Put(cur.entries, "value", Str(text)), "xpath", Str(xpath))))
    else
      var child := Get(cur.entries, parts[0]).GetOr(Arr([]));
      match Insert(child, parts[1..], text, xpath)
      case None => None
      case Some(c) =>
        assert (parts + ["value"])[1..] == parts[1..] + ["value"];
        assert (parts + ["xpath"])[1..] == parts[1..] + ["xpath"];
        Some(Arr(Put(cur.entries, parts[0], c)))
  }

  /** An empty array holds no string anywhere. */
  lemma EmptyHasNoScalar(path: seq<string>)
    ensures !ScalarAt(Arr([]), path)
  {
  }

  /** Following a non-empty path from an array looks up its first part
      and follows the rest from there. */
  lemma FollowFirst(v: Value, q: seq<string>)
    requires q != [] && v.Arr?
    ensures Follow(v, q) ==
      if Get(v.entries, q[0]).Some? then Follow(Get(v.entries, q[0]).value, q[1..]) else None
  {
  }

  /** An insert with no parts left writes `value` and `xpath` into the
      current array and leaves every other key as it was. */
  lemma InsertHere(cur: Value, text: string, xpath: string, k: string)
    requires Insert(cur, [], text, xpath).Some?
    ensures cur.Arr?
    ensures Get(Insert(cur, [], text, xpath).value.entries, k) ==
      if k == "xpath" then Some(Str(xpath))
      else if k == "value" then Some(Str(text))
      else Get(cur.entries, k)
  {
  }

  /** An insert with parts left replaces the entry under the first part by
      the insert of the rest into it (into an empty array when the key was
      not set), and leaves every other key as it was. */
  lemma InsertDescends(cur: Value, parts: seq<string>, text: string, xpath: string, k: string)
    requires parts != [] && Insert(cur, parts, text, xpath).Some?
    ensures cur.Arr?
    ensures Insert(Get(cur.entries, parts[0]).GetOr(Arr([])), parts[1..], text, xpath).Some?
    ensures Get(Insert(cur, parts, text, xpath).value.entries, k) ==
      if k == parts[0] then Some(Insert(Get(cur.entries, parts[0]).GetOr(Arr([])), parts[1..], text, xpath).value)
      else Get(cur.entries, k)
  {
  }

  /** Inserting fails exactly when the walk meets a string: when some
      prefix of the parts (the empty one included) leads to a string. */
  lemma {:induction false} InsertFailsOnScalar(cur: Value, parts: seq<string>, text: string, xpath: string)
    ensures Insert(cur, parts, text, xpath).None? <==>
      exists p :: IsPrefix(p, parts) && ScalarAt(cur, p)
    decreases |parts|
  {
    assert IsPrefix([], parts) && Follow(cur, []) == Some(cur);
    if cur.Arr? && parts != [] {
      var k := parts[0];
      var present := Get(cur.entries, k);
      var child := present.GetOr(Arr([]));
      InsertFailsOnScalar(child, parts[1..], text, xpath);
      // A non-empty prefix of the parts is the first part followed by a
      // prefix of the rest.
      forall p | IsPrefix(p, parts) && p != []
        ensures p == [k] + p[1..] && IsPrefix(p[1..], parts[1..])
        ensures ScalarAt(cur, p) <==> present.Some? && ScalarAt(child, p[1..])
      {
        assert p[1..] == parts[1..][..|p| - 1];
      }
      forall p' | IsPrefix(p', parts[1..])
        ensures IsPrefix([k] + p', parts)
        ensures ScalarAt(cur, [k] + p') <==> present.Some? && ScalarAt(child, p')
      {
        assert ([k] + p')[1..] == p';
        assert parts == [k] + parts[1..];
      }
      if present.None? {
        forall p' ensures !ScalarAt(child, p') {
          EmptyHasNoScalar(p');
        }
      }
    }
  }

  /** A value `w` keeps what `v` held: the same string, or an array with at
      least the keys `v` had. */
  ghost predicate Kept(v: Value, w: Value) {
    && (v.Str? ==> w == v)
    && (v.Arr? ==> w.Arr? && forall k :: Get(v.entries, k).Some? ==> Get(w.entries, k).Some?)
  }

  /** Inserting never deletes or resets what earlier inserts created: every
      path that led somewhere still does, strings stay as they were and
      arrays only gain keys. The only exceptions are the `value` and `xpath`
      entries of the inserted record itself, and what lay below them. */
  lemma {:induction false} InsertKeeps(cur: Value, parts: seq<string>, text: string, xpath: string, q: seq<string>)
    requires Insert(cur, parts, text, xpath).Some?
    requires Follow(cur, q).Some?
    requires !IsPrefix(parts + ["value"], q) && !IsPrefix(parts + ["xpath"], q)
    ensures Follow(Insert(cur, parts, text, xpath).value, q).Some?
    ensures Kept(Follow(cur, q).value, Follow(Insert(cur, parts, text, xpath).value, q).value)
    decreases |parts|
  {
    var g := Insert(cur, parts, text, xpath).value;
    if q != [] {
      FollowFirst(cur, q);
      FollowFirst(g, q);
      if parts == [] {
        InsertHere(cur, text, xpath, q[0]);
        assert q[0] != "value" && q[0] != "xpath" by {
          assert q[..1] == [q[0]];
        }
      } else {
        InsertDescends(cur, parts, text, xpath, q[0]);
        if q[0] == parts[0] {
          InsertKeepsBelow(cur, parts, text, xpath, q);
        }
      }
    }
  }

  /** The step of `InsertKeeps` for a path that enters the array the insert
      descends into. */
  lemma {:induction false} InsertKeepsBelow(cur: Value, parts: seq<string>, text: string, xpath: string, q: seq<string>)
    requires parts != [] && q != [] && q[0] == parts[0]
    requires Insert(cur, parts, text, xpath).Some?
    requires Follow(cur, q).Some?
    requires !IsPrefix(parts + ["value"], q) && !IsPrefix(parts + ["xpath"], q)
    ensures Follow(Insert(cur, parts, text, xpath).value, q).Some?
    ensures Kept(Follow(cur, q).value, Follow(Insert(cur, parts, text, xpath).value, q).value)
    decreases |parts|, 0
  {
    var g := Insert(cur, parts, text, xpath).value;
    InsertDescends(cur, parts, text, xpath, parts[0]);
    FollowFirst(cur, q);
    FollowFirst(g, q);
    var child := Get(cur.entries, parts[0]).value;
    ConsTail(parts, "value", q);
    ConsTail(parts, "xpath", q);
    PrefixOfCons(parts[0], parts[1..] + ["value"], q[1..]);
    PrefixOfCons(parts[0], parts[1..] + ["xpath"], q[1..]);
    InsertKeeps(child, parts[1..], text, xpath, q[1..]);
  }

  /** After an insert, every string sits at one of the two entries the
      insert wrote, or at a path where it already was. */
  lemma {:induction false} InsertScalarOrigin(cur: Value, parts: seq<string>, text: string, xpath: string, q: seq<string>)
    requires Insert(cur, parts, text, xpath).Some?
    requires ScalarAt(Insert(cur, parts, text, xpath).value, q)
    ensures q == parts + ["value"] || q == parts + ["xpath"] || Follow(cur, q) == Follow(Insert(cur, parts, text, xpath).value, q)
    decreases |parts|
  {
    var g := Insert(cur, parts, text, xpath).value;
    assert q != [];
    FollowFirst(g, q);
    if parts == [] {
      InsertHere(cur, text, xpath, q[0]);
      if q[0] == "value" || q[0] == "xpath" {
        assert q == [q[0]];
      } else {
        FollowFirst(cur, q);
      }
    } else {
      InsertDescends(cur, parts, text, xpath, q[0]);
      if q[0] != parts[0] {
        FollowFirst(cur, q);
      } else {
        InsertScalarOriginBelow(cur, parts, text, xpath, q);
      }
    }
  }

  /** The step of `InsertScalarOrigin` for a path that enters the array the
      insert descends into. */
  lemma {:induction false} InsertScalarOriginBelow(cur: Value, parts: seq<string>, text: string, xpath: string, q: seq<string>)
    requires parts != [] && q != [] && q[0] == parts[0]
    requires Insert(cur, parts, text, xpath).Some?
    requires ScalarAt(Insert(cur, parts, text, xpath).value, q)
    ensures q == parts + ["value"] || q == parts + ["xpath"] || Follow(cur, q) == Follow(Insert(cur, parts, text, xpath).value, q)
    decreases |parts|, 0
  {
    var g := Insert(cur, parts, text, xpath).value;
    var present := Get(cur.entries, parts[0]);
    var child := present.GetOr(Arr([]));
    InsertDescends(cur, parts, text, xpath, parts[0]);
    FollowFirst(g, q);
    FollowFirst(cur, q);
    InsertScalarOrigin(child, parts[1..], text, xpath, q[1..]);
    ConsTail(parts, "value", q);
    ConsTail(parts, "xpath", q);
    if present.None? {
      EmptyHasNoScalar(q[1..]);
    }
  }

  /** After an insert, every path that leads anywhere already did, or lies
      on the way to one of the two entries the insert wrote: the insert
      creates no key off that way. */
  lemma {:induction false} InsertPathOrigin(cur: Value, parts: seq<string>, text: string, xpath: string, q: seq<string>)
    requires Insert(cur, parts, text, xpath).Some?
    requires Follow(Insert(cur, parts, text, xpath).value, q).Some?
    ensures Follow(cur, q).Some? || IsPrefix(q, parts + ["value"]) || IsPrefix(q, parts + ["xpath"])
    decreases |parts|
  {
    var g := Insert(cur, parts, text, xpath).value;
    if q != [] {
      FollowFirst(g, q);
      if parts == [] {
        InsertHere(cur, text, xpath, q[0]);
        if q[0] == "value" || q[0] == "xpath" {
          assert q == [q[0]];
        } else {
          FollowFirst(cur, q);
        }
      } else {
        InsertDescends(cur, parts, text, xpath, q[0]);
        if q[0] != parts[0] {
          FollowFirst(cur, q);
        } else {
          InsertPathOriginBelow(cur, parts, text, xpath, q);
        }
      }
    }
  }

  /** The step of `InsertPathOrigin` for a path that enters the array the
      insert descends into. */
  lemma {:induction false} InsertPathOriginBelow(cur: Value, parts: seq<string>, text: string, xpath: string, q: seq<string>)
    requires parts != [] && q != [] && q[0] == parts[0]
    requires Insert(cur, parts, text, xpath).Some?
    requires Follow(Insert(cur, parts, text, xpath).value, q).Some?
    ensures Follow(cur, q).Some? || IsPrefix(q, parts + ["value"]) || IsPrefix(q, parts + ["xpath"])
    decreases |parts|, 0
  {
    var g := Insert(cur, parts, text, xpath).value;
    var present := Get(cur.entries, parts[0]);
    var child := present.GetOr(Arr([]));
    InsertDescends(cur, parts, text, xpath, parts[0]);
    FollowFirst(g, q);
    FollowFirst(cur, q);
    InsertPathOrigin(child, parts[1..], text, xpath, q[1..]);
    PrefixOfCons(parts[0], q[1..], parts[1..] + ["value"]);
    PrefixOfCons(parts[0], q[1..], parts[1..] + ["xpath"]);
    ConsTail(parts, "value", q);
    ConsTail(parts, "xpath", q);
    if present.None? && Follow(child, q[1..]).Some? {
      EmptyReachesOnlyItself(q[1..]);
      assert IsPrefix(q, parts + ["value"]);
    }
  }

  /** Splitting off the first part of non-empty paths. */
  lemma ConsTail(parts: seq<string>, f: string, q: seq<string>)
    requires parts != [] && q != []
    ensures q == [q[0]] + q[1..]
    ensures parts + [f] == [parts[0]] + (parts[1..] + [f])
  {
  }

  /** Extending both paths by the same first key keeps the prefix relation. */
  lemma PrefixOfCons<T>(k: T, p: seq<T>, q: seq<T>)
    ensures IsPrefix(p, q) ==> IsPrefix([k] + p, [k] + q)
  {
    if IsPrefix(p, q) {
      assert ([k] + q)[..|p| + 1] == [k] + q[..|p|];
    }
  }

  /** Only the empty path leads anywhere from an empty array. */
  lemma EmptyReachesOnlyItself(path: seq<string>)
    ensures Follow(Arr([]), path).Some? <==> path == []
  {
  }

  /** The records from `rs` folded into `g`, one insert each, in order;
      None as soon as one insert fails. */
  function GroupFrom(g: Value, rs: seq<Record>): Option<Value>
    decreases |rs|
  {
    if rs == [] then Some(g)
    else
      match Insert(g, Parts(rs[0].xpath), rs[0].text, rs[0].xpath)
      case None => None
      case Some(g1) => GroupFrom(g1, rs[1..])
  }

  /** `groupResults`: all records folded into an initially empty array. */
  function GroupResults(rs: seq<Record>): Option<Value> {
    GroupFrom(Arr([]), rs)
  }

  /** After the fold, every string sits where it already was, or at the
      `value` or `xpath` entry of one of the folded records. */
  lemma {:induction false} GroupFromScalarOrigin(g: Value, rs: seq<Record>, q: seq<string>)
    requires GroupFrom(g, rs).Some? && ScalarAt(GroupFrom(g, rs).value, q)
    ensures Follow(GroupFrom(g, rs).value, q) == Follow(g, q)
      || exists i :: 0 <= i < |rs| && (q == Parts(rs[i].xpath) + ["value"] || q == Parts(rs[i].xpath) + ["xpath"])
    decreases |rs|
  {
    if rs != [] {
      var r := rs[0];
      var g1 := Insert(g, Parts(r.xpath), r.text, r.xpath).value;
      var rest := rs[1..];
      GroupFromStep(g, rs);
      GroupFromScalarOrigin(g1, rest, q);
      if Follow(GroupFrom(g1, rest).value, q) == Follow(g1, q) {
        InsertScalarOrigin(g, Parts(r.xpath), r.text, r.xpath, q);
        if q == Parts(r.xpath) + ["value"] || q == Parts(r.xpath) + ["xpath"] {
          assert rs[0] == r;
        }
      } else {
        FieldWriterInTail(rs, q);
      }
    }
  }

  /** A record of the tail that writes `q` is a record of the list that
      writes `q`. */
  lemma FieldWriterInTail(rs: seq<Record>, q: seq<string>)
    requires rs != []
    ensures (exists i :: 0 <= i < |rs[1..]| && (q == Parts(rs[1..][i].xpath) + ["value"] || q == Parts(rs[1..][i].xpath) + ["xpath"]))
      ==> exists i :: 0 <= i < |rs| && (q == Parts(rs[i].xpath) + ["value"] || q == Parts(rs[i].xpath) + ["xpath"])
  {
    if exists i :: 0 <= i < |rs[1..]| && (q == Parts(rs[1..][i].xpath) + ["value"] || q == Parts(rs[1..][i].xpath) + ["xpath"]) {
      var i :| 0 <= i < |rs[1..]| && (q == Parts(rs[1..][i].xpath) + ["value"] || q == Parts(rs[1..][i].xpath) + ["xpath"]);
      assert rs[1..][i] == rs[i + 1];
    }
  }

  /** Every string of the grouped result is the `value` or the `xpath`
      entry of some record: grouping writes no other string. */
  lemma GroupResultsScalarOrigin(rs: seq<Record>, q: seq<string>)
    requires GroupResults(rs).Some? && ScalarAt(GroupResults(rs).value, q)
    ensures exists i :: 0 <= i < |rs| && (q == Parts(rs[i].xpath) + ["value"] || q == Parts(rs[i].xpath) + ["xpath"])
  {
    GroupFromScalarOrigin(Arr([]), rs, q);
    EmptyHasNoScalar(q);
  }

  /** After the fold, every path that leads anywhere already did, or lies
      on the way to the `value` or `xpath` entry of a folded record. */
  lemma {:induction false} GroupFromPathOrigin(g: Value, rs: seq<Record>, q: seq<string>)
    requires GroupFrom(g, rs).Some? && Follow(GroupFrom(g, rs).value, q).Some?
    ensures Follow(g, q).Some?
      || exists i :: 0 <= i < |rs| && (IsPrefix(q, Parts(rs[i].xpath) + ["value"]) || IsPrefix(q, Parts(rs[i].xpath) + ["xpath"]))
    decreases |rs|
  {
    if rs != [] {
      var r := rs[0];
      var g1 := Insert(g, Parts(r.xpath), r.text, r.xpath).value;
      var rest := rs[1..];
      GroupFromStep(g, rs);
      GroupFromPathOrigin(g1, rest, q);
      if Follow(g1, q).Some? {
        InsertPathOrigin(g, Parts(r.xpath), r.text, r.xpath, q);
        if IsPrefix(q, Parts(r.xpath) + ["value"]) || IsPrefix(q, Parts(r.xpath) + ["xpath"]) {
          assert rs[0] == r;
        }
      } else {
        WayWriterInTail(rs, q);
      }
    }
  }

  /** A record of the tail whose entries `q` leads towards is a record of
      the list whose entries `q` leads towards. */
  lemma WayWriterInTail(rs: seq<Record>, q: seq<string>)
    requires rs != []
    ensures (exists i :: 0 <= i < |rs[1..]| && (IsPrefix(q, Parts(rs[1..][i].xpath) + ["value"]) || IsPrefix(q, Parts(rs[1..][i].xpath) + ["xpath"])))
      ==> exists i :: 0 <= i < |rs| && (IsPrefix(q, Parts(rs[i].xpath) + ["value"]) || IsPrefix(q, Parts(rs[i].xpath) + ["xpath"]))
  {
    if exists i :: 0 <= i < |rs[1..]| && (IsPrefix(q, Parts(rs[1..][i].xpath) + ["value"]) || IsPrefix(q, Parts(rs[1..][i].xpath) + ["xpath"])) {
      var i :| 0 <= i < |rs[1..]| && (IsPrefix(q, Parts(rs[1..][i].xpath) + ["value"]) || IsPrefix(q, Parts(rs[1..][i].xpath) + ["xpath"]));
      assert rs[1..][i] == rs[i + 1];
    }
  }

  /** Every path that leads anywhere in the grouped result is the empty
      one or lies on the way to the `value` or `xpath` entry of some record:
      grouping creates no other key, and no array off those ways. */
  lemma GroupResultsPathOrigin(rs: seq<Record>, q: seq<string>)
    requires GroupResults(rs).Some? && Follow(GroupResults(rs).value, q).Some?
    ensures q == []
      || exists i :: 0 <= i < |rs| && (IsPrefix(q, Parts(rs[i].xpath) + ["value"]) || IsPrefix(q, Parts(rs[i].xpath) + ["xpath"]))
  {
    GroupFromPathOrigin(Arr([]), rs, q);
    EmptyReachesOnlyItself(q);
  }

  /** No record's parts pass through, or end on, the `value` or `xpath`
      entry another record writes. */
  predicate NoFieldClash(rs: seq<Record>) {
    forall i, j :: 0 <= i < |rs| && 0 <= j < |rs| ==>
      !IsPrefix(Parts(rs[i].xpath) + ["value"], Parts(rs[j].xpath))
      && !IsPrefix(Parts(rs[i].xpath) + ["xpath"], Parts(rs[j].xpath))
  }

  /** No string of `g` sits on a prefix of the parts of a pending record. */
  ghost predicate ClearFor(g: Value, rs: seq<Record>) {
    forall q, j :: ScalarAt(g, q) && 0 <= j < |rs| ==> !IsPrefix(q, Parts(rs[j].xpath))
  }

  lemma {:induction false} GroupFromSucceeds(g: Value, rs: seq<Record>)
    requires g.Arr? && ClearFor(g, rs) && NoFieldClash(rs)
    ensures GroupFrom(g, rs).Some?
    decreases |rs|
  {
    if rs != [] {
      var r := rs[0];
      var parts := Parts(r.xpath);
      InsertFailsOnScalar(g, parts, r.text, r.xpath);
      var g1 := Insert(g, parts, r.text, r.xpath).value;
      var rest := rs[1..];
      forall q, j | ScalarAt(g1, q) && 0 <= j < |rest|
        ensures !IsPrefix(q, Parts(rest[j].xpath))
      {
        assert rest[j] == rs[j + 1];
        InsertScalarOrigin(g, parts, r.text, r.xpath, q);
        if q == parts + ["value"] || q == parts + ["xpath"] {
          assert !IsPrefix(Parts(rs[0].xpath) + ["value"], Parts(rs[j + 1].xpath));
          assert !IsPrefix(Parts(rs[0].xpath) + ["xpath"], Parts(rs[j + 1].xpath));
        } else {
          assert ScalarAt(g, q);
        }
      }
      forall i, j | 0 <= i < |rest| && 0 <= j < |rest|
        ensures !IsPrefix(Parts(rest[i].xpath) + ["value"], Parts(rest[j].xpath))
        ensures !IsPrefix(Parts(rest[i].xpath) + ["xpath"], Parts(rest[j].xpath))
      {
        assert rest[i] == rs[i + 1] && rest[j] == rs[j + 1];
      }
      GroupFromSucceeds(g1, rest);
    }
  }

  /** Grouping succeeds whenever no record's parts run through the `value`
      or `xpath` entry of another record. */
  lemma GroupResultsSucceeds(rs: seq<Record>)
    requires NoFieldClash(rs)
    ensures GroupResults(rs).Some?
  {
    forall q | ScalarAt(Arr([]), q)
      ensures false
    {
      EmptyHasNoScalar(q);
    }
    GroupFromSucceeds(Arr([]), rs);
  }

  /** A string no later record writes over, or below, survives the rest of
      the fold. */
  lemma {:induction false} GroupFromKeepsScalar(g: Value, rs: seq<Record>, q: seq<string>, s: string)
    requires GroupFrom(g, rs).Some?
    requires Follow(g, q) == Some(Str(s))
    requires forall j :: 0 <= j < |rs| ==>
      !IsPrefix(Parts(rs[j].xpath) + ["value"], q) && !IsPrefix(Parts(rs[j].xpath) + ["xpath"], q)
    ensures Follow(GroupFrom(g, rs).value, q) == Some(Str(s))
    decreases |rs|
  {
    if rs != [] {
      var r := rs[0];
      var g1 := Insert(g, Parts(r.xpath), r.text, r.xpath).value;
      InsertKeeps(g, Parts(r.xpath), r.text, r.xpath, q);
      assert Follow(g1, q) == Some(Str(s));
      var rest := rs[1..];
      forall j | 0 <= j < |rest|
        ensures !IsPrefix(Parts(rest[j].xpath) + ["value"], q)
        ensures !IsPrefix(Parts(rest[j].xpath) + ["xpath"], q)
      {
        assert rest[j] == rs[j + 1];
      }
      GroupFromStep(g, rs);
      GroupFromKeepsScalar(g1, rest, q, s);
    }
  }

  /** Folding a concatenation is folding the first list, then the second
      from where the first left off. */
  lemma {:induction false} GroupFromAppend(g: Value, a: seq<Record>, b: seq<Record>)
    ensures GroupFrom(g, a + b) ==
      if GroupFrom(g, a).None? then None else GroupFrom(GroupFrom(g, a).value, b)
    decreases |a|
  {
    if a == [] {
      assert a + b == b;
    } else {
      assert (a + b)[0] == a[0];
      assert (a + b)[1..] == a[1..] + b;
      match Insert(g, Parts(a[0].xpath), a[0].text, a[0].xpath)
      case None =>
      case Some(g1) => GroupFromAppend(g1, a[1..], b);
    }
  }

  /** A successful fold passes through each record: the records before it
      fold, its insert succeeds, and the records after it continue from
      there to the final result. */
  lemma GroupFromThrough(g: Value, pre: seq<Record>, r: Record, post: seq<Record>)
    ensures GroupFrom(g, pre + [r] + post).Some? ==>
      && GroupFrom(g, pre).Some?
      && Insert(GroupFrom(g, pre).value, Parts(r.xpath), r.text, r.xpath).Some?
      && GroupFrom(Insert(GroupFrom(g, pre).value, Parts(r.xpath), r.text, r.xpath).value, post)
        == GroupFrom(g, pre + [r] + post)
  {
    if GroupFrom(g, pre + [r] + post).Some? {
      var tail := [r] + post;
      SplitAround(pre, r, post);
      GroupFromAppend(g, pre, tail);
      GroupFromStep(GroupFrom(g, pre).value, tail);
    }
  }

  /** The sequence facts `GroupFromThrough` rests on, stated apart from
      the fold so that the solver meets them without it. */
  lemma SplitAround<T>(pre: seq<T>, x: T, post: seq<T>)
    ensures pre + [x] + post == pre + ([x] + post)
    ensures ([x] + post)[0] == x && ([x] + post)[1..] == post
  {
  }

  /** Every sequence is its prefix, the element at `i` and its suffix. */
  lemma SplitAt<T>(s: seq<T>, i: nat)
    requires i < |s|
    ensures s == s[..i] + [s[i]] + s[i + 1..]
  {
  }

  /** A successful fold of a non-empty list is the insert of its first
      record followed by the fold of the rest. */
  lemma GroupFromStep(g: Value, rs: seq<Record>)
    requires rs != [] && GroupFrom(g, rs).Some?
    ensures Insert(g, Parts(rs[0].xpath), rs[0].text, rs[0].xpath).Some?
    ensures GroupFrom(Insert(g, Parts(rs[0].xpath), rs[0].text, rs[0].xpath).value, rs[1..]) == GroupFrom(g, rs)
  {
  }

  /** A record that no later record shares its parts with, and whose parts
      no later record writes a field on, has entries no later record writes
      over or below. */
  lemma LaterWritesMissFields(rs: seq<Record>, i: nat, later: seq<Record>)
    requires i < |rs| && later == rs[i + 1..]
    requires forall j :: i < j < |rs| ==> Parts(rs[j].xpath) != Parts(rs[i].xpath)
    requires forall j :: i < j < |rs| ==>
      !IsPrefix(Parts(rs[j].xpath) + ["value"], Parts(rs[i].xpath))
      && !IsPrefix(Parts(rs[j].xpath) + ["xpath"], Parts(rs[i].xpath))
    ensures forall j :: 0 <= j < |later| ==>
      && !IsPrefix(Parts(later[j].xpath) + ["value"], Parts(rs[i].xpath) + ["value"])
      && !IsPrefix(Parts(later[j].xpath) + ["xpath"], Parts(rs[i].xpath) + ["value"])
      && !IsPrefix(Parts(later[j].xpath) + ["value"], Parts(rs[i].xpath) + ["xpath"])
      && !IsPrefix(Parts(later[j].xpath) + ["xpath"], Parts(rs[i].xpath) + ["xpath"])
  {
    var parts := Parts(rs[i].xpath);
    forall j | 0 <= j < |later|
      ensures !IsPrefix(Parts(later[j].xpath) + ["value"], parts + ["value"])
      ensures !IsPrefix(Parts(later[j].xpath) + ["xpath"], parts + ["value"])
      ensures !IsPrefix(Parts(later[j].xpath) + ["value"], parts + ["xpath"])
      ensures !IsPrefix(Parts(later[j].xpath) + ["xpath"], parts + ["xpath"])
    {
      var pj := Parts(later[j].xpath);
      assert later[j] == rs[i + 1 + j];
      PrefixOfSnoc(pj, "value", parts, "value");
      PrefixOfSnoc(pj, "xpath", parts, "value");
      PrefixOfSnoc(pj, "value", parts, "xpath");
      PrefixOfSnoc(pj, "xpath", parts, "xpath");
    }
  }

  /** Following a record's parts from the root of the grouped result reaches
      an array whose `value` is that record's text and whose `xpath` is its
      path, provided it is the last record filed under those parts and no
      later record writes its own `value` or `xpath` on the way there: the
      last write wins. */
  lemma GroupResultsLastWriteWins(rs: seq<Record>, i: nat)
    requires GroupResults(rs).Some? && i < |rs|
    requires forall j :: i < j < |rs| ==> Parts(rs[j].xpath) != Parts(rs[i].xpath)
    requires forall j :: i < j < |rs| ==>
      !IsPrefix(Parts(rs[j].xpath) + ["value"], Parts(rs[i].xpath))
      && !IsPrefix(Parts(rs[j].xpath) + ["xpath"], Parts(rs[i].xpath))
    ensures Follow(GroupResults(rs).value, Parts(rs[i].xpath) + ["value"]) == Some(Str(rs[i].text))
    ensures Follow(GroupResults(rs).value, Parts(rs[i].xpath) + ["xpath"]) == Some(Str(rs[i].xpath))
  {
    var parts := Parts(rs[i].xpath);
    var later := rs[i + 1..];
    SplitAt(rs, i);
    GroupFromThrough(Arr([]), rs[..i], rs[i], later);
    var g1 := Insert(GroupFrom(Arr([]), rs[..i]).value, parts, rs[i].text, rs[i].xpath).value;
    LaterWritesMissFields(rs, i, later);
    GroupFromKeepsScalar(g1, later, parts + ["value"], rs[i].text);
    GroupFromKeepsScalar(g1, later, parts + ["xpath"], rs[i].xpath);
  }
}

=== FILE: leaf_selection.dfy ===
/**
 The XPath query for "every element with no element child", evaluated
 directly on the tree: the selected elements, in document order; and the list of
 `xpath`/`text` records the service builds from the selected elements.
 */
module LeafSelection {
  import opened XmlTree
  import opened XPath

  /** Document order of locations: a node comes before its descendants, and
      children in index order. */
  predicate LexLess(a: Loc, b: Loc)
    decreases |a|
  {
    b != [] && (a == [] || a[0] < b[0] || (a[0] == b[0] && LexLess(a[1..], b[1..])))
  }

  lemma {:induction false} LexLessIrreflexive(a: Loc)
    ensures !LexLess(a, a)
    decreases |a|
  {
    if a != [] {
      LexLessIrreflexive(a[1..]);
    }
  }

  predicate InDocumentOrder(s: seq<Loc>) {
    forall x, y :: 0 <= x < y < |s| ==> LexLess(s[x], s[y])
  }

  /** Every location of `locs`, one level further down, below child `i`. */
  function Under(i: nat, locs: seq<Loc>): (r: seq<Loc>)
    ensures |r| == |locs|
    ensures forall k :: 0 <= k < |r| ==> r[k] == [i] + locs[k]
  {
    seq(|locs|, k requires 0 <= k < |locs| => [i] + locs[k])
  }

  lemma UnderMember(i: nat, locs: seq<Loc>, l: Loc)
    ensures l in Under(i, locs) <==> l != [] && l[0] == i && l[1..] in locs
  {
    var r := Under(i, locs);
    if l in r {
      var k :| 0 <= k < |r| && r[k] == l;
      assert l[1..] == locs[k];
    }
    if l != [] && l[0] == i && l[1..] in locs {
      var k :| 0 <= k < |locs| && locs[k] == l[1..];
      assert r[k] == l;
    }
  }

  /** The pre-order walk: the node itself when it is a leaf element, then
      the leaves below each child in turn. */
  function LeafWalk(n: Node): seq<Loc>
    decreases n, 1
  {
    (if IsLeafElement(n) then [[]] else []) + LeafWalkFrom(n, 0)
  }

  function LeafWalkFrom(n: Node, i: nat): seq<Loc>
    decreases n, 0, |Kids(n)| - i
  {
    if i >= |Kids(n)| then []
    else Under(i, LeafWalk(Kids(n)[i])) + LeafWalkFrom(n, i + 1)
  }

  /** The walk lists exactly the leaf elements below `n`. */
  lemma {:induction false} LeafWalkSpec(n: Node)
    ensures forall l :: l in LeafWalk(n) <==> ValidLoc(n, l) && IsLeafElement(NodeAt(n, l))
    decreases n, 1
  {
    LeafWalkFromSpec(n, 0);
  }

  lemma {:induction false} LeafWalkFromSpec(n: Node, i: nat)
    ensures forall l :: l in LeafWalkFrom(n, i) <==>
      l != [] && l[0] >= i && ValidLoc(n, l) && IsLeafElement(NodeAt(n, l))
    decreases n, 0, |Kids(n)| - i
  {
    if i < |Kids(n)| {
      var child := Kids(n)[i];
      var head := Under(i, LeafWalk(child));
      var rest := LeafWalkFrom(n, i + 1);
      assert LeafWalkFrom(n, i) == head + rest;
      LeafWalkSpec(child);
      LeafWalkFromSpec(n, i + 1);
      forall l
        ensures l in head + rest <==>
          l != [] && l[0] >= i && ValidLoc(n, l) && IsLeafElement(NodeAt(n, l))
      {
        UnderMember(i, LeafWalk(child), l);
        if l != [] {
          DescendLoc(n, l);
        }
      }
    }
  }

  /** A non-empty location is valid when its first index picks a child and
      the rest is valid below that child, and it names the node found
      there. */
  lemma DescendLoc(n: Node, l: Loc)
    requires l != []
    ensures ValidLoc(n, l) <==> l[0] < |Kids(n)| && ValidLoc(Kids(n)[l[0]], l[1..])
    ensures ValidLoc(n, l) ==> NodeAt(n, l) == NodeAt(Kids(n)[l[0]], l[1..])
  {
  }

  lemma {:induction false} LeafWalkOrder(n: Node)
    ensures InDocumentOrder(LeafWalk(n))
    decreases n, 1
  {
    var own: seq<Loc> := if IsLeafElement(n) then [[]] else [];
    LeafWalkFromOrder(n, 0);
    LeafWalkFromSpec(n, 0);
    var rest := LeafWalkFrom(n, 0);
    assert forall y :: 0 <= y < |rest| ==> rest[y] in rest;
    ConcatInOrder(own, rest);
  }

  lemma {:induction false} LeafWalkFromOrder(n: Node, i: nat)
    ensures InDocumentOrder(LeafWalkFrom(n, i))
    decreases n, 0, |Kids(n)| - i
  {
    if i < |Kids(n)| {
      var child := Kids(n)[i];
      var head := Under(i, LeafWalk(child));
      var rest := LeafWalkFrom(n, i + 1);
      LeafWalkOrder(child);
      LeafWalkFromOrder(n, i + 1);
      LeafWalkFromSpec(n, i + 1);
      forall x, y | 0 <= x < y < |head|
        ensures LexLess(head[x], head[y])
      {
        assert head[x][1..] == LeafWalk(child)[x] && head[y][1..] == LeafWalk(child)[y];
      }
      forall x, y | 0 <= x < |head| && 0 <= y < |rest|
        ensures LexLess(head[x], rest[y])
      {
        assert rest[y] in rest;
      }
      ConcatInOrder(head, rest);
    }
  }

  lemma ConcatInOrder(a: seq<Loc>, b: seq<Loc>)
    requires InDocumentOrder(a) && InDocumentOrder(b)
    requires forall x, y :: 0 <= x < |a| && 0 <= y < |b| ==> LexLess(a[x], b[y])
    ensures InDocumentOrder(a + b)
  {
  }

  /** The XPath query selecting every element with no element child: every
      leaf element of the document, each exactly once, in document order. */
  function SelectLeaves(root: Node): (r: seq<Loc>)
    ensures forall k :: 0 <= k < |r| ==> LeafAt(root, r[k])
    ensures forall l :: LeafAt(root, l) ==> l in r
    ensures InDocumentOrder(r)
    ensures forall x, y :: 0 <= x < |r| && 0 <= y < |r| && x != y ==> r[x] != r[y]
  {
    LeafWalkSpec(root);
    LeafWalkOrder(root);
    var r := LeafWalk(root);
    assert forall k :: 0 <= k < |r| ==> r[k] in r;
    forall x, y | 0 <= x < |r| && 0 <= y < |r| && x != y
      ensures r[x] != r[y]
    {
      LexLessIrreflexive(r[x]);
    }
    r
  }

  /** One entry of the flat result list: the element's path and its text. */
  datatype Record = Record(xpath: string, text: string)

  function RecordOf(root: Node, loc: Loc): Record
    requires ValidLoc(root, loc)
  {
    Record(GetXpath(root, loc), TextContent(NodeAt(root, loc)))
  }

  /** The flat result list: one record per selected element, in order. */
  function Extract(root: Node): (rs: seq<Record>)
    ensures |rs| == |SelectLeaves(root)|
  {
    var locs := SelectLeaves(root);
    seq(|locs|, k requires 0 <= k < |locs| => RecordOf(root, locs[k]))
  }

  /** The foreach loop that builds the flat result list. */
  method ExtractRecords(root: Node) returns (results: seq<Record>)
    ensures results == Extract(root)
  {
    var elements := SelectLeaves(root);
    results := [];
    var k := 0;
    while k < |elements|
      invariant 0 <= k <= |elements|
      invariant results == Extract(root)[..k]
    {
      var xpath := GetXpathLoop(root, elements[k]);
      results := results + [Record(xpath, TextContent(NodeAt(root, elements[k])))];
      k := k + 1;
    }
  }

  /** Every leaf element has a record carrying its path and its text
      content. */
  lemma ExtractComplete(root: Node, l: Loc)
    requires LeafAt(root, l)
    ensures exists k :: 0 <= k < |Extract(root)| && Extract(root)[k] == RecordOf(root, l)
  {
    var locs := SelectLeaves(root);
    var k :| 0 <= k < |locs| && locs[k] == l;
    assert Extract(root)[k] == RecordOf(root, l);
  }

  /** Every record is the record of a leaf element. */
  lemma ExtractSound(root: Node, k: nat)
    requires k < |Extract(root)|
    ensures exists l :: LeafAt(root, l) && Extract(root)[k] == RecordOf(root, l)
  {
    var locs := SelectLeaves(root);
    assert LeafAt(root, locs[k]) && Extract(root)[k] == RecordOf(root, locs[k]);
  }

  /** In a well-formed document no two records share a path, so there is
      exactly one record per leaf element. */
  lemma ExtractDistinctPaths(root: Node, x: nat, y: nat)
    requires WellFormed(root)
    requires x < |Extract(root)| && y < |Extract(root)| && x != y
    ensures Extract(root)[x].xpath != Extract(root)[y].xpath
  {
    var locs := SelectLeaves(root);
    assert Extract(root)[x] == RecordOf(root, locs[x]);
    assert Extract(root)[y] == RecordOf(root, locs[y]);
    XpathInjective(root, locs[x], locs[y]);
  }
}

=== FILE: path_strings.dfy ===
/**
 The string operations the service applies to paths: `trim($s, '/')`,
 `explode('/', $s)`, joining parts back with '/', and building an
 absolute path from its segments.
 */
module PathStrings {

  predicate NoSlash(s: string) {
    forall i :: 0 <= i < |s| ==> s[i] != '/'
  }

  /** Strips every leading '/'. */
  function TrimLeft(s: string): (r: string)
    ensures |r| <= |s| && r == s[|s| - |r|..]
    ensures forall i :: 0 <= i < |s| - |r| ==> s[i] == '/'
    ensures r == [] || r[0] != '/'
  {
    if |s| > 0 && s[0] == '/' then TrimLeft(s[1..]) else s
  }

  /** Strips every trailing '/'. */
  function TrimRight(s: string): (r: string)
    ensures |r| <= |s| && r == s[..|r|]
    ensures forall i :: |r| <= i < |s| ==> s[i] == '/'
    ensures r == [] || r[|r| - 1] != '/'
  {
    if |s| > 0 && s[|s| - 1] == '/' then TrimRight(s[..|s| - 1]) else s
  }

  /** `trim($s, '/')`: strips '/' from both ends. */
  function Trim(s: string): string {
    TrimRight(TrimLeft(s))
  }

  /** `explode('/', $s)`: the pieces of `s` between separators. There is
      always at least one piece; the empty string gives one empty piece. */
  function Explode(s: string): (parts: seq<string>)
    ensures |parts| >= 1
    ensures forall k :: 0 <= k < |parts| ==> NoSlash(parts[k])
  {
    if s == [] then [""]
    else
      var rest := Explode(s[1..]);
      if s[0] == '/' then [""] + rest
      else [[s[0]] + rest[0]] + rest[1..]
  }

  /** `implode('/', $parts)`: joins the pieces with one '/' between each two. */
  function Implode(parts: seq<string>): string {
    if |parts| == 0 then ""
    else if |parts| == 1 then parts[0]
    else parts[0] + "/" + Implode(parts[1..])
  }

  /** An absolute path: every segment preceded by '/'. */
  function JoinPath(segs: seq<string>): string {
    if segs == [] then "" else "/" + segs[0] + JoinPath(segs[1..])
  }

  /** Joining the pieces `explode` returns rebuilds the original string. */
  lemma {:induction false} ImplodeExplode(s: string)
    ensures Implode(Explode(s)) == s
  {
    if s != [] {
      var rest := Explode(s[1..]);
      ImplodeExplode(s[1..]);
      if s[0] == '/' {
        assert Explode(s) == [""] + rest;
        assert (([""] + rest)[1..]) == rest;
      } else {
        var parts := Explode(s);
        assert parts == [[s[0]] + rest[0]] + rest[1..];
        if |rest| == 1 {
          assert Implode(parts) == [s[0]] + rest[0];
        } else {
          assert parts[1..] == rest[1..];
          assert Implode(rest) == rest[0] + "/" + Implode(rest[1..]);
          assert Implode(parts) == [s[0]] + rest[0] + "/" + Implode(rest[1..]);
        }
        assert s == [s[0]] + s[1..];
      }
    }
  }

  /** A string without '/' explodes into itself alone. */
  lemma {:induction false} ExplodeNoSlash(s: string)
    requires NoSlash(s)
    ensures Explode(s) == [s]
  {
    if s != [] {
      ExplodeNoSlash(s[1..]);
      assert [s[0]] + s[1..] == s;
    }
  }

  /** A '/'-free piece followed by '/' is split off as the first piece. */
  lemma {:induction false} ExplodeCons(p: string, x: string)
    requires NoSlash(p)
    ensures Explode(p + "/" + x) == [p] + Explode(x)
  {
    if p == [] {
      assert p + "/" + x == "/" + x;
      assert ("/" + x)[1..] == x;
    } else {
      var s := p + "/" + x;
      assert s[0] == p[0];
      assert s[1..] == p[1..] + "/" + x;
      ExplodeCons(p[1..], x);
      assert [p[0]] + p[1..] == p;
    }
  }

  /** Splitting the joined pieces gives the pieces back, when none holds '/'. */
  lemma {:induction false} ExplodeImplode(parts: seq<string>)
    requires |parts| >= 1
    requires forall k :: 0 <= k < |parts| ==> NoSlash(parts[k])
    ensures Explode(Implode(parts)) == parts
    decreases |parts|
  {
    if |parts| == 1 {
      ExplodeNoSlash(parts[0]);
    } else {
      ExplodeImplode(parts[1..]);
      ExplodeCons(parts[0], Implode(parts[1..]));
      assert [parts[0]] + parts[1..] == parts;
    }
  }

  /** Appending a segment to a path appends "/" and the segment. */
  lemma {:induction false} JoinPathSnoc(segs: seq<string>, s: string)
    ensures JoinPath(segs + [s]) == JoinPath(segs) + "/" + s
    decreases |segs|
  {
    if segs == [] {
      assert segs + [s] == [s];
    } else {
      assert (segs + [s])[0] == segs[0];
      assert (segs + [s])[1..] == segs[1..] + [s];
      JoinPathSnoc(segs[1..], s);
    }
  }

  /** A non-empty absolute path is '/' followed by its segments imploded. */
  lemma {:induction false} JoinPathImplode(segs: seq<string>)
    requires |segs| >= 1
    ensures JoinPath(segs) == "/" + Implode(segs)
    decreases |segs|
  {
    if |segs| > 1 {
      JoinPathImplode(segs[1..]);
    }
  }

  /** The first and last characters of joined non-empty pieces are those of
      the first and last piece. */
  lemma {:induction false} ImplodeEnds(parts: seq<string>)
    requires |parts| >= 1
    requires forall k :: 0 <= k < |parts| ==> |parts[k]| > 0
    ensures |Implode(parts)| > 0
    ensures Implode(parts)[0] == parts[0][0]
    ensures Implode(parts)[|Implode(parts)| - 1] == parts[|parts| - 1][|parts[|parts| - 1]| - 1]
    decreases |parts|
  {
    if |parts| > 1 {
      ImplodeEnds(parts[1..]);
    }
  }

  /** `trim` then `explode` undoes `JoinPath` for non-empty segments free of '/':
      the split returns exactly the segments the path was built from. */
  lemma SplitJoinPath(segs: seq<string>)
    requires |segs| >= 1
    requires forall k :: 0 <= k < |segs| ==> |segs[k]| > 0 && NoSlash(segs[k])
    ensures Explode(Trim(JoinPath(segs))) == segs
  {
    var inner := Implode(segs);
    JoinPathImplode(segs);
    ImplodeEnds(segs);
    var last := segs[|segs| - 1];
    assert last[|last| - 1] != '/';
    var p := "/" + inner;
    assert p[1..] == inner;
    assert TrimLeft(inner) == inner;
    assert TrimLeft(p) == inner;
    assert TrimRight(inner) == inner;
    ExplodeImplode(segs);
  }
}

=== FILE: service.dfy ===
/**
 `getXPaths` between parsing and JSON encoding: the flat records of the
 leaf elements, grouped into a nested array; and the end-to-end guarantee
 for a well-formed document.
 */
module Service {
  import opened Wrappers
  import opened XmlTree
  import opened PathStrings
  import opened XPath
  import opened LeafSelection
  import opened Grouping

  /** When the segments of one element followed by one more part form a
      prefix of the segments of another, the first element has an element
      child: the one on the way to the second. */
  lemma ExtendedPathHasChild(root: Node, l1: Loc, l2: Loc, f: string)
    requires WellFormed(root) && ElementAt(root, l1) && ElementAt(root, l2)
    ensures IsPrefix(SegmentsOf(root, l1) + [f], SegmentsOf(root, l2)) ==>
      HasElementChild(NodeAt(root, l1))
  {
    var s1 := SegmentsOf(root, l1);
    var s2 := SegmentsOf(root, l2);
    SegmentsLength(root, l1);
    SegmentsLength(root, l2);
    if IsPrefix(s1 + [f], s2) {
      var d := |l1|;
      assert s2[..d] == (s1 + [f])[..d] == s1;
      SegmentsPrefix(root, l2, d);
      AncestorIsElement(root, l2, d);
      SegmentsInjective(root, l2[..d], l1);
      PrefixValid(root, l2, d);
      if d + 1 < |l2| {
        AncestorIsElement(root, l2, d + 1);
      } else {
        assert l2[..d + 1] == l2;
      }
      assert Kids(NodeAt(root, l1))[l2[d]].Element?;
    }
  }

  /** The segment list of a leaf element, extended by any part, is never a
      prefix of the segment list of a leaf element. */
  lemma LeafPathsPrefixFree(root: Node, l1: Loc, l2: Loc, f: string)
    requires WellFormed(root) && LeafAt(root, l1) && LeafAt(root, l2)
    ensures !IsPrefix(SegmentsOf(root, l1) + [f], SegmentsOf(root, l2))
  {
    ExtendedPathHasChild(root, l1, l2, f);
  }

  /** The parts `groupResults` files a record under are the segments of the
      selected element's path. */
  lemma RecordParts(root: Node, k: nat)
    requires WellFormed(root) && k < |Extract(root)|
    ensures Parts(Extract(root)[k].xpath) == SegmentsOf(root, SelectLeaves(root)[k])
  {
    var l := SelectLeaves(root)[k];
    assert Extract(root)[k] == RecordOf(root, l);
    XpathSplitRoundTrip(root, l);
  }

  /** In a well-formed document no record's parts run through the `value`
      or `xpath` entry of another record. */
  lemma ExtractNoFieldClash(root: Node)
    requires WellFormed(root)
    ensures NoFieldClash(Extract(root))
  {
    var rs := Extract(root);
    var locs := SelectLeaves(root);
    forall i, j | 0 <= i < |rs| && 0 <= j < |rs|
      ensures !IsPrefix(Parts(rs[i].xpath) + ["value"], Parts(rs[j].xpath))
      ensures !IsPrefix(Parts(rs[i].xpath) + ["xpath"], Parts(rs[j].xpath))
    {
      RecordParts(root, i);
      RecordParts(root, j);
      LeafPathsPrefixFree(root, locs[i], locs[j], "value");
      LeafPathsPrefixFree(root, locs[i], locs[j], "xpath");
    }
  }

  /** In a well-formed document two records are filed under different
      parts. */
  lemma ExtractDistinctParts(root: Node, x: nat, y: nat)
    requires WellFormed(root)
    requires x < |Extract(root)| && y < |Extract(root)| && x != y
    ensures Parts(Extract(root)[x].xpath) != Parts(Extract(root)[y].xpath)
  {
    var locs := SelectLeaves(root);
    RecordParts(root, x);
    RecordParts(root, y);
    if SegmentsOf(root, locs[x]) == SegmentsOf(root, locs[y]) {
      SegmentsInjective(root, locs[x], locs[y]);
    }
  }

  /** Grouping the records of a well-formed document succeeds, and under the
      segments of every leaf element's path sits an array whose `value` is
      the element's text content and whose `xpath` is its path. */
  lemma GroupedLeaf(root: Node, l: Loc)
    requires WellFormed(root) && LeafAt(root, l)
    ensures GroupResults(Extract(root)).Some?
    ensures Follow(GroupResults(Extract(root)).value, SegmentsOf(root, l) + ["value"])
      == Some(Str(TextContent(NodeAt(root, l))))
    ensures Follow(GroupResults(Extract(root)).value, SegmentsOf(root, l) + ["xpath"])
      == Some(Str(GetXpath(root, l)))
  {
    var rs := Extract(root);
    ExtractNoFieldClash(root);
    GroupResultsSucceeds(rs);
    var locs := SelectLeaves(root);
    var k :| 0 <= k < |locs| && locs[k] == l;
    assert rs[k] == RecordOf(root, l);
    RecordParts(root, k);
    forall j | k < j < |rs|
      ensures Parts(rs[j].xpath) != Parts(rs[k].xpath)
    {
      ExtractDistinctParts(root, j, k);
    }
    GroupResultsLastWriteWins(rs, k);
  }

  /** In the grouped result of a well-formed document every string is the
      `value` or the `xpath` entry under the segments of some element with
      no element child. */
  lemma GroupedScalarIsLeafField(root: Node, q: seq<string>)
    requires WellFormed(root)
    requires GroupResults(Extract(root)).Some? && ScalarAt(GroupResults(Extract(root)).value, q)
    ensures exists l ::
      LeafAt(root, l) && (q == SegmentsOf(root, l) + ["value"] || q == SegmentsOf(root, l) + ["xpath"])
  {
    var rs := Extract(root);
    GroupResultsScalarOrigin(rs, q);
    var i :| 0 <= i < |rs| && (q == Parts(rs[i].xpath) + ["value"] || q == Parts(rs[i].xpath) + ["xpath"]);
    RecordParts(root, i);
    assert LeafAt(root, SelectLeaves(root)[i]);
  }

  /** In the grouped result of a well-formed document every path that
      leads anywhere is the empty one or lies on the way to the `value` or
      the `xpath` entry under the segments of some element with no element
      child: together with `GroupedLeaf` and `GroupedScalarIsLeafField`,
      the two entries of each such element and nothing else. */
  lemma GroupedPathIsLeafWay(root: Node, q: seq<string>)
    requires WellFormed(root)
    requires GroupResults(Extract(root)).Some? && Follow(GroupResults(Extract(root)).value, q).Some?
    ensures q == [] || exists l ::
      LeafAt(root, l) && (IsPrefix(q, SegmentsOf(root, l) + ["value"]) || IsPrefix(q, SegmentsOf(root, l) + ["xpath"]))
  {
    var rs := Extract(root);
    GroupResultsPathOrigin(rs, q);
    if q != [] {
      var i :| 0 <= i < |rs| && (IsPrefix(q, Parts(rs[i].xpath) + ["value"]) || IsPrefix(q, Parts(rs[i].xpath) + ["xpath"]));
      RecordParts(root, i);
      assert LeafAt(root, SelectLeaves(root)[i]);
    }
  }

  /** `getXPaths` on a parsed document, without the JSON encoding. */
  method GetXPaths(root: Node) returns (grouped: Option<Value>)
    ensures grouped == GroupResults(Extract(root))
    ensures WellFormed(root) ==> grouped.Some?
    ensures WellFormed(root) ==> forall l :: LeafAt(root, l) ==>
      && Follow(grouped.value, SegmentsOf(root, l) + ["value"]) == Some(Str(TextContent(NodeAt(root, l))))
      && Follow(grouped.value, SegmentsOf(root, l) + ["xpath"]) == Some(Str(GetXpath(root, l)))
    ensures WellFormed(root) ==> forall q :: ScalarAt(grouped.value, q) ==> exists l ::
      LeafAt(root, l) && (q == SegmentsOf(root, l) + ["value"] || q == SegmentsOf(root, l) + ["xpath"])
    ensures WellFormed(root) ==> forall q :: Follow(grouped.value, q).Some? ==> q == [] || exists l ::
      LeafAt(root, l) && (IsPrefix(q, SegmentsOf(root, l) + ["value"]) || IsPrefix(q, SegmentsOf(root, l) + ["xpath"]))
  {
    var results := ExtractRecords(root);
    grouped := GroupResults(results);
    if WellFormed(root) {
      ExtractNoFieldClash(root);
      GroupResultsSucceeds(results);
      forall l | LeafAt(root, l)
        ensures Follow(grouped.value, SegmentsOf(root, l) + ["value"]) == Some(Str(TextContent(NodeAt(root, l))))
        ensures Follow(grouped.value, SegmentsOf(root, l) + ["xpath"]) == Some(Str(GetXpath(root, l)))
      {
        GroupedLeaf(root, l);
      }
      forall q | ScalarAt(grouped.value, q)
        ensures exists l ::
          LeafAt(root, l) && (q == SegmentsOf(root, l) + ["value"] || q == SegmentsOf(root, l) + ["xpath"])
      {
        GroupedScalarIsLeafField(root, q);
      }
      forall q | Follow(grouped.value, q).Some?
        ensures q == [] || exists l ::
          LeafAt(root, l) && (IsPrefix(q, SegmentsOf(root, l) + ["value"]) || IsPrefix(q, SegmentsOf(root, l) + ["xpath"]))
      {
        GroupedPathIsLeafWay(root, q);
      }
    }
  }
}

=== FILE: wrappers.dfy ===
/** The optional-value datatype used for lookups and for operations that can fail. */
module Wrappers {

  datatype Option<T> = None | Some(value: T) {

    /** The value held by Some, or the given default for None. */
    function GetOr(default: T): T {
      match this
      case Some(v) => v
      case None => default
    }
  }
}

=== FILE: xml_tree.dfy ===
/**
 An immutable model of the parsed DOM tree the extraction service walks.

 The document node is itself a `Node` (`Doc`), so that climbing parent
 links "while the node is an element" stops on it exactly as the DOM
 walk does. A location is the sequence of child indices leading from the
 document node down to a node; the parent of a location is the location
 without its last index.
 */
module XmlTree {

  /** Child indices from the document node down to a node. */
  type Loc = seq<nat>

  datatype Node =
    | Doc(children: seq<Node>)
    | Element(name: string, children: seq<Node>)
    | Text(data: string)
    | CData(data: string)
    | Comment(data: string)
    | PI(target: string, data: string)
    | DocType(name: string)

  /** The DOM `nodeName` of each kind of node. */
  function NodeName(n: Node): string {
    match n
    case Doc(_) => "#document"
    case Element(name, _) => name
    case Text(_) => "#text"
    case CData(_) => "#cdata-section"
    case Comment(_) => "#comment"
    case PI(target, _) => target
    case DocType(name) => name
  }

  /** The child nodes; only documents and elements have any. */
  function Kids(n: Node): seq<Node> {
    if n.Doc? || n.Element? then n.children else []
  }

  predicate HasElementChild(n: Node) {
    exists i :: 0 <= i < |Kids(n)| && Kids(n)[i].Element?
  }

  /** An element none of whose children is an element: what the query "every element without element children" selects. */
  predicate IsLeafElement(n: Node) {
    n.Element? && !HasElementChild(n)
  }

  /** The DOM `textContent`: the text and CDATA data of all descendants, in
      document order; comments and processing instructions inside an element
      contribute nothing. */
  function TextContent(n: Node): string
    decreases n
  {
    match n
    case Doc(_) => ""
    case Element(_, cs) => ConcatText(cs)
    case Text(d) => d
    case CData(d) => d
    case Comment(d) => d
    case PI(_, d) => d
    case DocType(_) => ""
  }

  function ConcatText(cs: seq<Node>): string
    decreases cs
  {
    if cs == [] then ""
    else
      var head := if cs[0].Comment? || cs[0].PI? then "" else TextContent(cs[0]);
      head + ConcatText(cs[1..])
  }

  /** The character data written directly in a child list: the text of its
      text and CDATA nodes, in order; every other kind of node adds nothing. */
  function CharData(cs: seq<Node>): string {
    if cs == [] then ""
    else
      var head := match cs[0] case Text(d) => d case CData(d) => d case _ => "";
      head + CharData(cs[1..])
  }

  /** Over a child list without elements, the text content is the
      character data written directly in it. */
  lemma {:induction false} ConcatTextNoElement(cs: seq<Node>)
    requires forall i :: 0 <= i < |cs| ==> !cs[i].Element?
    ensures ConcatText(cs) == CharData(cs)
  {
    if cs != [] {
      ConcatTextNoElement(cs[1..]);
    }
  }

  /** The text content of an element with no element child, which is all
      the service ever reads it from, is the in-order concatenation of its
      text and CDATA children; comments and processing instructions add
      nothing. */
  lemma LeafTextContent(n: Node)
    requires IsLeafElement(n)
    ensures TextContent(n) == CharData(n.children)
  {
    assert Kids(n) == n.children;
    ConcatTextNoElement(n.children);
  }

  predicate ValidLoc(n: Node, loc: Loc)
    decreases |loc|
  {
    loc == [] || (loc[0] < |Kids(n)| && ValidLoc(Kids(n)[loc[0]], loc[1..]))
  }

  function NodeAt(n: Node, loc: Loc): Node
    requires ValidLoc(n, loc)
    decreases |loc|
  {
    if loc == [] then n else NodeAt(Kids(n)[loc[0]], loc[1..])
  }

  function Parent(loc: Loc): Loc
    requires loc != []
  {
    loc[..|loc| - 1]
  }

  function Last(loc: Loc): nat
    requires loc != []
  {
    loc[|loc| - 1]
  }

  predicate ElementAt(root: Node, loc: Loc) {
    ValidLoc(root, loc) && NodeAt(root, loc).Element?
  }

  predicate LeafAt(root: Node, loc: Loc) {
    ValidLoc(root, loc) && IsLeafElement(NodeAt(root, loc))
  }

  /** Element names as XML admits them: never empty, and never containing
      '/', '[' or ']'. */
  predicate ValidName(s: string) {
    |s| > 0 && forall i :: 0 <= i < |s| ==> s[i] != '/' && s[i] != '[' && s[i] != ']'
  }

  /** A node that can appear below a document node: no nested document, and
      every element name valid. */
  predicate ProperNode(n: Node) {
    match n
    case Doc(_) => false
    case Element(name, cs) => ValidName(name) && (forall i :: 0 <= i < |cs| ==> ProperNode(cs[i]))
    case _ => true
  }

  /** What a successful parse produces: a document node whose descendants
      are proper nodes. */
  predicate WellFormed(root: Node) {
    root.Doc? && forall i :: 0 <= i < |root.children| ==> ProperNode(root.children[i])
  }

  /** Extending a location by one child index descends to that child. */
  lemma {:induction false} NodeAtSnoc(n: Node, loc: Loc, i: nat)
    ensures ValidLoc(n, loc + [i]) <==> ValidLoc(n, loc) && i < |Kids(NodeAt(n, loc))|
    ensures ValidLoc(n, loc + [i]) ==> NodeAt(n, loc + [i]) == Kids(NodeAt(n, loc))[i]
    decreases |loc|
  {
    if loc == [] {
      assert loc + [i] == [i];
      assert [i][1..] == [];
    } else {
      assert (loc + [i])[0] == loc[0];
      assert (loc + [i])[1..] == loc[1..] + [i];
      if loc[0] < |Kids(n)| {
        NodeAtSnoc(Kids(n)[loc[0]], loc[1..], i);
      }
    }
  }

  /** The parent of a valid non-empty location is valid, and the node there
      is the matching child of the parent. */
  lemma ParentValid(n: Node, loc: Loc)
    requires loc != [] && ValidLoc(n, loc)
    ensures ValidLoc(n, Parent(loc))
    ensures Last(loc) < |Kids(NodeAt(n, Parent(loc)))|
    ensures NodeAt(n, loc) == Kids(NodeAt(n, Parent(loc)))[Last(loc)]
  {
    assert loc == Parent(loc) + [Last(loc)];
    NodeAtSnoc(n, Parent(loc), Last(loc));
  }

  /** Every prefix of a valid location is valid, and the node one level
      below the prefix is a child of the node at the prefix. */
  lemma {:induction false} PrefixValid(n: Node, loc: Loc, d: nat)
    requires ValidLoc(n, loc) && d < |loc|
    ensures ValidLoc(n, loc[..d]) && ValidLoc(n, loc[..d + 1])
    ensures loc[d] < |Kids(NodeAt(n, loc[..d]))|
    ensures NodeAt(n, loc[..d + 1]) == Kids(NodeAt(n, loc[..d]))[loc[d]]
    decreases |loc| - d
  {
    if d + 1 == |loc| {
      assert loc[..d + 1] == loc;
      assert loc[..d] == Parent(loc);
      ParentValid(n, loc);
    } else {
      PrefixValid(n, loc, d + 1);
      var p := loc[..d + 1];
      assert p[..d] == loc[..d];
      assert Parent(p) == loc[..d] && Last(p) == loc[d];
      ParentValid(n, p);
    }
  }

  /** Below a proper node every node is proper. */
  lemma {:induction false} ProperBelow(n: Node, loc: Loc)
    requires ProperNode(n) && ValidLoc(n, loc)
    ensures ProperNode(NodeAt(n, loc))
    decreases |loc|
  {
    if loc != [] {
      ProperBelow(Kids(n)[loc[0]], loc[1..]);
    }
  }

  /** In a well-formed document the document node sits only at the root:
      every other location holds a proper node. */
  lemma WellFormedBelowRoot(root: Node, loc: Loc)
    requires WellFormed(root) && ValidLoc(root, loc) && loc != []
    ensures ProperNode(NodeAt(root, loc))
  {
    ProperBelow(root.children[loc[0]], loc[1..]);
  }

  /** In a well-formed document every strict ancestor of an element, other
      than the document node, is itself an element. */
  lemma AncestorIsElement(root: Node, loc: Loc, d: nat)
    requires WellFormed(root) && ValidLoc(root, loc) && 0 < d < |loc|
    ensures ElementAt(root, loc[..d])
  {
    PrefixValid(root, loc, d);
    WellFormedBelowRoot(root, loc[..d]);
  }
}

=== FILE: xpath.dfy ===
/**
 The positional path `getXpath` builds for an element: climb the parent
 links while the node is an element; for each node count the preceding
 siblings OF ANY KIND whose node name equals its own; write the name,
 followed by "[position]" only when the position exceeds 1; prepend the
 segment with '/'.
 */
module XPath {
  import opened Wrappers
  import opened XmlTree
  import opened Decimal
  import opened PathStrings

  /** How many nodes of `s` have node name `name`. */
  function CountNamed(s: seq<Node>, name: string): nat {
    if s == [] then 0 else (if NodeName(s[0]) == name then 1 else 0) + CountNamed(s[1..], name)
  }

  lemma {:induction false} CountNamedZero(s: seq<Node>, name: string)
    ensures CountNamed(s, name) == 0 <==> forall j :: 0 <= j < |s| ==> NodeName(s[j]) != name
  {
    if s != [] {
      CountNamedZero(s[1..], name);
      assert forall j :: 1 <= j < |s| ==> s[j] == s[1..][j - 1];
    }
  }

  lemma {:induction false} CountNamedAppend(a: seq<Node>, b: seq<Node>, name: string)
    ensures CountNamed(a + b, name) == CountNamed(a, name) + CountNamed(b, name)
  {
    if a == [] {
      assert a + b == b;
    } else {
      assert (a + b)[0] == a[0];
      assert (a + b)[1..] == a[1..] + b;
      CountNamedAppend(a[1..], b, name);
    }
  }

  /** The position of `sibs[i]`: one more than the number of preceding
      siblings, of any node kind, that share its node name. */
  function Position(sibs: seq<Node>, i: nat): (p: nat)
    requires i < |sibs|
    ensures p >= 1
    ensures p == 1 <==> forall j :: 0 <= j < i ==> NodeName(sibs[j]) != NodeName(sibs[i])
  {
    CountNamedZero(sibs[..i], NodeName(sibs[i]));
    1 + CountNamed(sibs[..i], NodeName(sibs[i]))
  }

  /** Later siblings with the same node name get strictly larger positions. */
  lemma PositionIncreasing(sibs: seq<Node>, i: nat, k: nat)
    requires i < k < |sibs|
    requires NodeName(sibs[i]) == NodeName(sibs[k])
    ensures Position(sibs, i) < Position(sibs, k)
  {
    var name := NodeName(sibs[k]);
    assert sibs[..k] == sibs[..i] + sibs[i..k];
    CountNamedAppend(sibs[..i], sibs[i..k], name);
    assert sibs[i..k][0] == sibs[i];
  }

  /** Two siblings with the same node name and the same position are the
      same sibling. */
  lemma PositionInjective(sibs: seq<Node>, i: nat, k: nat)
    requires i < |sibs| && k < |sibs|
    requires NodeName(sibs[i]) == NodeName(sibs[k])
    requires Position(sibs, i) == Position(sibs, k)
    ensures i == k
  {
    if i < k {
      PositionIncreasing(sibs, i, k);
    } else if k < i {
      PositionIncreasing(sibs, k, i);
    }
  }

  /** The loop of `getXpath` that walks the previous-sibling chain and counts
      the nodes sharing the element's node name. */
  method ComputePosition(sibs: seq<Node>, i: nat) returns (position: nat)
    requires i < |sibs|
    ensures position == Position(sibs, i)
  {
    var name := NodeName(sibs[i]);
    position := 1;
    var j := i;
    while j > 0
      invariant 0 <= j <= i
      invariant position == 1 + CountNamed(sibs[j..i], name)
    {
      j := j - 1;
      assert sibs[j..i][1..] == sibs[j + 1..i];
      if NodeName(sibs[j]) == name {
        position := position + 1;
      }
    }
    assert sibs[0..i] == sibs[..i];
  }

  /** The index of the first occurrence of `c` in `s`, or `|s|` if none. */
  function FirstIndexOf(s: string, c: char): (r: nat)
    ensures r <= |s|
    ensures forall i :: 0 <= i < r ==> s[i] != c
    ensures r < |s| ==> s[r] == c
  {
    if s == [] then 0 else if s[0] == c then 0 else 1 + FirstIndexOf(s[1..], c)
  }

  lemma {:induction false} FirstIndexAfterPrefix(p: string, rest: string, c: char)
    requires forall i :: 0 <= i < |p| ==> p[i] != c
    requires rest == [] || rest[0] == c
    ensures FirstIndexOf(p + rest, c) == |p|
  {
    if p == [] {
      assert p + rest == rest;
    } else {
      assert (p + rest)[0] == p[0];
      assert (p + rest)[1..] == p[1..] + rest;
      FirstIndexAfterPrefix(p[1..], rest, c);
    }
  }

  /** "[1]" begins at index `j` of `s`. */
  predicate MarkerAt(s: string, j: nat) {
    j + 3 <= |s| && s[j] == '[' && s[j + 1] == '1' && s[j + 2] == ']'
  }

  /** `s` contains the substring "[1]". */
  predicate HasFirstMarker(s: string) {
    exists j: nat :: j < |s| && MarkerAt(s, j)
  }

  /** One path segment: the node name, followed by "[position]" only when
      the position exceeds 1. */
  function Segment(name: string, pos: nat): (seg: string)
    ensures |seg| >= |name| && seg[..|name|] == name
    ensures ValidName(name) ==> |seg| > 0 && NoSlash(seg)
  {
    if pos > 1 then name + "[" + NatToString(pos) + "]" else name
  }

  /** Reads a segment back as its name and position; segments that do not
      have the shape `Segment` produces give None. */
  function ParseSegment(seg: string): Option<(string, nat)> {
    var b := FirstIndexOf(seg, '[');
    if b == |seg| then Some((seg, 1))
    else if b + 2 <= |seg| && seg[|seg| - 1] == ']' && AllDigits(seg[b + 1..|seg| - 1]) then
      Some((seg[..b], ParseDecimal(seg[b + 1..|seg| - 1])))
    else None
  }

  /** A segment carries a bracket exactly when the position exceeds 1, and
      reading it back recovers the name and the position. */
  lemma SegmentRoundTrip(name: string, pos: nat)
    requires ValidName(name) && pos >= 1
    ensures (exists i :: 0 <= i < |Segment(name, pos)| && Segment(name, pos)[i] == '[') <==> pos > 1
    ensures ParseSegment(Segment(name, pos)) == Some((name, pos))
  {
    var seg := Segment(name, pos);
    if pos > 1 {
      var d := NatToString(pos);
      assert seg == name + ("[" + d + "]");
      FirstIndexAfterPrefix(name, "[" + d + "]", '[');
      assert seg[|name|] == '[';
      assert seg[|name| + 1..|seg| - 1] == d;
      ParseNatToString(pos);
    } else {
      assert seg == name + [];
      FirstIndexAfterPrefix(name, [], '[');
    }
  }

  /** Equal segments come from equal names at equal positions. */
  lemma SegmentInjective(n1: string, p1: nat, n2: string, p2: nat)
    requires ValidName(n1) && ValidName(n2) && p1 >= 1 && p2 >= 1
    ensures Segment(n1, p1) == Segment(n2, p2) <==> n1 == n2 && p1 == p2
  {
    SegmentRoundTrip(n1, p1);
    SegmentRoundTrip(n2, p2);
  }

  /** Appending a segment of a valid name never creates "[1]". */
  lemma AppendSegmentNoMarker(a: string, name: string, pos: nat)
    requires !HasFirstMarker(a) && ValidName(name)
    ensures !HasFirstMarker(a + "/" + Segment(name, pos))
  {
    var seg := Segment(name, pos);
    var s := a + "/" + seg;
    forall j: nat | j < |s|
      ensures !MarkerAt(s, j)
    {
      if j + 3 > |s| {
      } else if j + 3 <= |a| {
        assert s[j] == a[j] && s[j + 1] == a[j + 1] && s[j + 2] == a[j + 2];
        assert !MarkerAt(a, j);
      } else if j < |a| {
        assert s[|a|] == '/';
      } else if j == |a| {
        assert s[j] == '/';
      } else {
        var t := j - |a| - 1;
        assert s[j] == seg[t] && s[j + 1] == seg[t + 1] && s[j + 2] == seg[t + 2];
        if t < |name| {
          assert seg[t] == name[t];
        } else {
          assert pos > 1;
          var d := NatToString(pos);
          assert seg == name + "[" + d + "]";
          if t == |name| {
            assert seg[t + 1] == d[0];
            NatToStringIsOne(pos);
            if |d| == 1 {
              assert d == [d[0]];
              assert d[0] != '1';
            } else {
              assert seg[t + 2] == d[1];
            }
          } else {
            assert seg[t] == d[t - |name| - 1];
          }
        }
      }
    }
  }

  /** The position `getXpath` uses for the node at `loc`: 1 for a node
      without a parent, otherwise its position among its parent's children. */
  function PositionAt(root: Node, loc: Loc): (p: nat)
    requires ValidLoc(root, loc)
    ensures p >= 1
  {
    if loc == [] then 1
    else
      ParentValid(root, loc);
      Position(Kids(NodeAt(root, Parent(loc))), Last(loc))
  }

  /** The segment `getXpath` writes for the node at `loc`. */
  function SegmentAt(root: Node, loc: Loc): string
    requires ValidLoc(root, loc)
  {
    Segment(NodeName(NodeAt(root, loc)), PositionAt(root, loc))
  }

  /** `getXpath`: the segments of the node and of its ancestors, as long as
      they are elements, each prefixed with '/'. The climb stops at the first
      node that is not an element, or after a node without a parent. */
  function GetXpath(root: Node, loc: Loc): string
    requires ValidLoc(root, loc)
    decreases |loc|
  {
    if !NodeAt(root, loc).Element? then ""
    else if loc == [] then "/" + SegmentAt(root, loc)
    else
      ParentValid(root, loc);
      GetXpath(root, Parent(loc)) + "/" + SegmentAt(root, loc)
  }

  /** The same climb, collecting the segments (outermost first) instead of
      the string. */
  function SegmentsOf(root: Node, loc: Loc): seq<string>
    requires ValidLoc(root, loc)
    decreases |loc|
  {
    if !NodeAt(root, loc).Element? then []
    else if loc == [] then [SegmentAt(root, loc)]
    else
      ParentValid(root, loc);
      SegmentsOf(root, Parent(loc)) + [SegmentAt(root, loc)]
  }

  /** One step of the climb: an element's path is its parent's path
      followed by "/" and its own segment. */
  lemma GetXpathStep(root: Node, loc: Loc)
    requires ValidLoc(root, loc) && NodeAt(root, loc).Element?
    ensures loc == [] ==> GetXpath(root, loc) == "/" + SegmentAt(root, loc)
    ensures loc != [] ==> ValidLoc(root, Parent(loc))
    ensures loc != [] ==> GetXpath(root, loc) == GetXpath(root, Parent(loc)) + "/" + SegmentAt(root, loc)
  {
    if loc != [] {
      ParentValid(root, loc);
    }
  }

  /** The body of the climb for one node: its position from the sibling
      walk, then its name with the position suffix. */
  method ComputeSegment(root: Node, loc: Loc) returns (seg: string)
    requires ValidLoc(root, loc)
    ensures seg == SegmentAt(root, loc)
  {
    var position := 1;
    if loc != [] {
      ParentValid(root, loc);
      position := ComputePosition(Kids(NodeAt(root, Parent(loc))), Last(loc));
    }
    seg := Segment(NodeName(NodeAt(root, loc)), position);
  }

  /** Regrouping a four-part concatenation; the loop of `getXpath` needs it
      in a context where the solver does not find it unaided. */
  lemma ConcatAssoc(a: string, b: string, c: string, d: string)
    ensures a + b + c + d == a + (b + c + d)
  {
  }

  /** The loop of `getXpath` as written: prepend "/segment" while the current
      node is an element, then move to the parent. */
  method GetXpathLoop(root: Node, loc: Loc) returns (xpath: string)
    requires ValidLoc(root, loc)
    ensures xpath == GetXpath(root, loc)
  {
    xpath := "";
    var cur := loc;
    var noParent := false;
    while !noParent && NodeAt(root, cur).Element?
      invariant ValidLoc(root, cur)
      invariant noParent ==> xpath == GetXpath(root, loc)
      invariant !noParent ==> GetXpath(root, cur) + xpath == GetXpath(root, loc)
      decreases |cur| + (if noParent then 0 else 1)
    {
      var seg := ComputeSegment(root, cur);
      GetXpathStep(root, cur);
      if cur == [] {
        xpath := "/" + seg + xpath;
        noParent := true;
      } else {
        ConcatAssoc(GetXpath(root, Parent(cur)), "/", seg, xpath);
        xpath := "/" + seg + xpath;
        cur := Parent(cur);
      }
    }
  }

  /** The path string is the segment list joined as an absolute path. */
  lemma {:induction false} GetXpathIsJoin(root: Node, loc: Loc)
    requires ValidLoc(root, loc)
    ensures GetXpath(root, loc) == JoinPath(SegmentsOf(root, loc))
    decreases |loc|
  {
    if NodeAt(root, loc).Element? {
      if loc == [] {
        JoinPathSnoc([], SegmentAt(root, loc));
        assert [] + [SegmentAt(root, loc)] == [SegmentAt(root, loc)];
      } else {
        ParentValid(root, loc);
        GetXpathIsJoin(root, Parent(loc));
        JoinPathSnoc(SegmentsOf(root, Parent(loc)), SegmentAt(root, loc));
      }
    }
  }

  /** In a well-formed document the segment of every element is non-empty
      and free of '/'. */
  lemma ElementSegmentShape(root: Node, loc: Loc)
    requires WellFormed(root) && ElementAt(root, loc)
    ensures |SegmentAt(root, loc)| > 0 && NoSlash(SegmentAt(root, loc))
    ensures ValidName(NodeName(NodeAt(root, loc)))
  {
    WellFormedBelowRoot(root, loc);
  }

  /** In a well-formed document the path of an element has exactly one
      segment per element on its ancestor chain (the document node gives
      none), and every segment is non-empty and free of '/'. */
  lemma {:induction false} SegmentsLength(root: Node, loc: Loc)
    requires WellFormed(root) && ElementAt(root, loc)
    ensures |SegmentsOf(root, loc)| == |loc|
    ensures forall k :: 0 <= k < |SegmentsOf(root, loc)| ==>
      |SegmentsOf(root, loc)[k]| > 0 && NoSlash(SegmentsOf(root, loc)[k])
    decreases |loc|
  {
    assert loc != [];
    ParentValid(root, loc);
    ElementSegmentShape(root, loc);
    var p := Parent(loc);
    if |loc| == 1 {
      assert p == [];
      assert SegmentsOf(root, p) == [];
    } else {
      AncestorIsElement(root, loc, |loc| - 1);
      assert loc[..|loc| - 1] == p;
      SegmentsLength(root, p);
    }
    assert SegmentsOf(root, loc) == SegmentsOf(root, p) + [SegmentAt(root, loc)];
  }

  /** The segments of an ancestor are a prefix of the element's segments. */
  lemma {:induction false} SegmentsPrefix(root: Node, loc: Loc, d: nat)
    requires WellFormed(root) && ElementAt(root, loc) && 1 <= d <= |loc|
    ensures |SegmentsOf(root, loc)| == |loc|
    ensures ValidLoc(root, loc[..d]) && SegmentsOf(root, loc[..d]) == SegmentsOf(root, loc)[..d]
    decreases |loc|
  {
    SegmentsLength(root, loc);
    if d == |loc| {
      assert loc[..d] == loc;
    } else {
      var p := Parent(loc);
      SegmentsStep(root, loc);
      SegmentsPrefix(root, p, d);
      assert loc[..d] == p[..d];
      TakeOfSnoc(SegmentsOf(root, p), SegmentAt(root, loc), d);
    }
  }

  /** Below the root element, an element's parent is an element and its
      segments are the parent's segments followed by its own. */
  lemma SegmentsStep(root: Node, loc: Loc)
    requires WellFormed(root) && ElementAt(root, loc) && |loc| > 1
    ensures ElementAt(root, Parent(loc))
    ensures SegmentsOf(root, loc) == SegmentsOf(root, Parent(loc)) + [SegmentAt(root, loc)]
  {
    ParentValid(root, loc);
    AncestorIsElement(root, loc, |loc| - 1);
    assert loc[..|loc| - 1] == Parent(loc);
  }

  /** Taking no more than the original elements ignores an appended one. */
  lemma TakeOfSnoc<T>(s: seq<T>, x: T, d: nat)
    ensures d <= |s| ==> (s + [x])[..d] == s[..d]
  {
  }

  /** Segment `d` of an element's path is the segment written for its
      ancestor at depth `d + 1`: the path lists the ancestor chain from the
      root element down to the element. */
  lemma SegmentsAtDepth(root: Node, loc: Loc, d: nat)
    requires WellFormed(root) && ElementAt(root, loc) && d < |loc|
    ensures |SegmentsOf(root, loc)| == |loc|
    ensures ValidLoc(root, loc[..d + 1])
    ensures SegmentsOf(root, loc)[d] == SegmentAt(root, loc[..d + 1])
  {
    SegmentsLength(root, loc);
    SegmentsPrefix(root, loc, d + 1);
    var q := loc[..d + 1];
    assert q != [] && |q| == d + 1;
    if d + 1 < |loc| {
      AncestorIsElement(root, loc, d + 1);
    }
    ParentValid(root, q);
    assert SegmentsOf(root, q) == SegmentsOf(root, Parent(q)) + [SegmentAt(root, q)] || q == [];
    assert SegmentsOf(root, q)[d] == SegmentAt(root, q);
  }

  /** Splitting a generated path with `trim($xpath, '/')` and `explode('/')`
      returns exactly the segments `getXpath` built. */
  lemma XpathSplitRoundTrip(root: Node, loc: Loc)
    requires WellFormed(root) && ElementAt(root, loc)
    ensures Explode(Trim(GetXpath(root, loc))) == SegmentsOf(root, loc)
  {
    GetXpathIsJoin(root, loc);
    SegmentsLength(root, loc);
    assert loc != [];
    SplitJoinPath(SegmentsOf(root, loc));
  }

  /** Two children of one node that are elements with the same segment are
      the same child. */
  lemma SiblingSegmentInjective(root: Node, l1: Loc, l2: Loc)
    requires WellFormed(root) && ElementAt(root, l1) && ElementAt(root, l2)
    requires l1 != [] && l2 != [] && Parent(l1) == Parent(l2)
    requires SegmentAt(root, l1) == SegmentAt(root, l2)
    ensures l1 == l2
  {
    ParentValid(root, l1);
    ParentValid(root, l2);
    var sibs := Kids(NodeAt(root, Parent(l1)));
    var i1, i2 := Last(l1), Last(l2);
    assert PositionAt(root, l1) == Position(sibs, i1);
    assert PositionAt(root, l2) == Position(sibs, i2);
    ElementSegmentShape(root, l1);
    ElementSegmentShape(root, l2);
    SegmentInjective(NodeName(sibs[i1]), Position(sibs, i1), NodeName(sibs[i2]), Position(sibs, i2));
    PositionInjective(sibs, i1, i2);
    SameParentSameLast(l1, l2);
  }

  /** Two locations with the same parent and the same last index are equal. */
  lemma SameParentSameLast(l1: Loc, l2: Loc)
    requires l1 != [] && l2 != []
    ensures Parent(l1) == Parent(l2) && Last(l1) == Last(l2) ==> l1 == l2
  {
    assert l1 == Parent(l1) + [Last(l1)] && l2 == Parent(l2) + [Last(l2)];
  }

  /** Two elements of one well-formed document with the same segment list
      are the same element. */
  lemma {:induction false} SegmentsInjective(root: Node, l1: Loc, l2: Loc)
    requires WellFormed(root) && ElementAt(root, l1) && ElementAt(root, l2)
    requires SegmentsOf(root, l1) == SegmentsOf(root, l2)
    ensures l1 == l2
    decreases |l1|
  {
    SegmentsLength(root, l1);
    SegmentsLength(root, l2);
    var n := |l1|;
    assert l1 != [] && l2 != [] && |l2| == n;
    ParentValid(root, l1);
    ParentValid(root, l2);
    var p1, p2 := Parent(l1), Parent(l2);
    var s1, s2 := SegmentsOf(root, p1), SegmentsOf(root, p2);
    var t1, t2 := SegmentAt(root, l1), SegmentAt(root, l2);
    assert SegmentsOf(root, l1) == s1 + [t1];
    assert SegmentsOf(root, l2) == s2 + [t2];
    assert |s1| == |s2|;
    assert s1 == (s1 + [t1])[..|s1|] && s2 == (s2 + [t2])[..|s2|];
    assert t1 == (s1 + [t1])[|s1|] && t2 == (s2 + [t2])[|s2|];
    if n > 1 {
      AncestorIsElement(root, l1, n - 1);
      AncestorIsElement(root, l2, n - 1);
      assert l1[..n - 1] == p1 && l2[..n - 1] == p2;
      SegmentsInjective(root, p1, p2);
    }
    SiblingSegmentInjective(root, l1, l2);
  }

  /** Distinct elements of one well-formed document get distinct paths. */
  lemma XpathInjective(root: Node, l1: Loc, l2: Loc)
    requires WellFormed(root) && ElementAt(root, l1) && ElementAt(root, l2)
    ensures GetXpath(root, l1) == GetXpath(root, l2) <==> l1 == l2
  {
    if GetXpath(root, l1) == GetXpath(root, l2) {
      XpathSplitRoundTrip(root, l1);
      XpathSplitRoundTrip(root, l2);
      SegmentsInjective(root, l1, l2);
    }
  }

  /** No path generated in a well-formed document contains "[1]". */
  lemma {:induction false} NoFirstMarker(root: Node, loc: Loc)
    requires WellFormed(root) && ValidLoc(root, loc)
    ensures !HasFirstMarker(GetXpath(root, loc))
    decreases |loc|
  {
    if NodeAt(root, loc).Element? {
      assert loc != [];
      ParentValid(root, loc);
      NoFirstMarker(root, Parent(loc));
      ElementSegmentShape(root, loc);
      AppendSegmentNoMarker(GetXpath(root, Parent(loc)), NodeName(NodeAt(root, loc)), PositionAt(root, loc));
    }
  }

  /** Siblings that are not elements take part in the count too: a
      processing instruction whose target is the element's name, or a
      document type declaration naming the root element, gives the element
      position 2 although it is the first element of that name. */
  lemma OtherKindSiblingCounts()
    ensures GetXpath(Doc([PI("item", ""), Element("item", [])]), [1]) == "/item[2]"
    ensures GetXpath(Doc([DocType("root"), Element("root", [])]), [1]) == "/root[2]"
  {
    var d1 := Doc([PI("item", ""), Element("item", [])]);
    var d2 := Doc([DocType("root"), Element("root", [])]);
    assert Kids(d1)[..1] == [PI("item", "")];
    assert Kids(d2)[..1] == [DocType("root")];
    assert NatToString(2) == "2";
    assert Parent([1]) == [];
    assert PositionAt(d1, [1]) == 2;
    assert PositionAt(d2, [1]) == 2;
  }
}
